=== FILE: README.md ===
# Netaxept client — a Dafny model

This project models the core of a PHP client for the Netaxept payment gateway. It covers:

- how the client builds a request URL for each endpoint;
- how it sends one GET per operation and routes the reply;
- how it classifies the reply document: a root `Exception` becomes a gateway exception through the exception factory, and any other root becomes a typed response through the response factory;
- how a `Query` response derives a transaction status from its `Summary` and from an optional in-band error.

Everything is pure. The reply is an already-parsed XML tree. The HTTP transport, the percent-encoding and PHP's string casts are function parameters.

Modules, one per file:

| module | file | what it models |
|---|---|---|
| `Optional` | `optional.dfy` | `Option` |
| `Php` | `php.dfy` | PHP ordered arrays: `$a[$k] = $v`, left-biased `+`, `array_filter` by key; `lcfirst`; the uninterpreted `(int)` and `filter_var` casts |
| `Xml` | `xml.dfy` | a SimpleXML-like tree. `$node->Name` is the first child with that name, or an empty element. The flattening `foreach (...) $a[lcfirst($tag)] = (string) $v` |
| `Failures` | `failures.dfy` | the exception classes; the failures a call can raise; `Outcome` |
| `ExceptionFactory` | `exception_factory.dfy` | the injectable discriminant → class map; `getException`; the BBS result |
| `Responses` | `responses.dfy` | the `AbstractResponse` constructor's in-band `Error` check; the response variants |
| `ResponseFactory` | `response_factory.dfy` | the injectable root-tag → class map; `getResponse` |
| `Query` | `query.dfy` | `getTransactionStatus` and the document reads of a `Query` response |
| `QueryString` | `query_string.dfy` | the `key=value&...` structure `http_build_query` writes, and a parser that reads it back |
| `Api` | `api.dfy` | endpoints, credentials, the process allowlist, `getUri`, `performRequest`, the operations and wrappers, `getTerminalUri` |

A call that throws in PHP returns `Raised(failure)` here:

- a failed `Webmozart\Assert` check is `InvalidArgument(message)`, with the message the code passes to it (see "## Left out" for `%` in that message);
- a gateway exception is `GatewayException(class, message, result)`;
- the response-level exception is `ResponseException(message, code, source)`.

An injected factory class is modelled as `Option<known class>`. `None` stands for the null or empty argument that `Assert::notEmpty` refuses.

## Model

| member | source | states |
|---|---|---|
| Php.Set | src/Netaxept/Exception/BBSException.php:23 | After `$a[$k] = $v`: `k` reads `v`; every other key reads as before; an existing key keeps its position and a new key is appended last; distinct keys stay distinct |
| Php.Union | src/Netaxept/Api.php:288-291 | `$a + $b` is left-biased: a key of `a` keeps `a`'s value, any other key reads `b`'s. `a` is an unchanged prefix, followed by `b`'s entries with other keys in `b`'s order. Distinct keys are preserved |
| Php.Restrict | src/Netaxept/Api.php:146-148 | Filtering by key: a key in the allowed set reads as in the input, any other key is absent. Every surviving entry comes from the input |
| Php.RestrictAppend | src/Netaxept/Api.php:146-148 | Filtering by key distributes over concatenation, so `array_filter` keeps the surviving entries in their input order |
| Php.RemoveAppend | src/Netaxept/Api.php:288-291 | Dropping keys distributes over concatenation, so the entries `+` takes from the right operand keep their order |
| Php.LcFirstSpec | src/Netaxept/Exception/BBSException.php:23 | `lcfirst` keeps the length and every character after the first. It lowers the first character by 32 exactly when it is an ASCII capital |
| Xml.Child | src/Netaxept/Response/Query.php:88-91 | `$xml->Name` has that name. When the node has a child so named, it is the first such child; when it has none, it is the empty element |
| Xml.TextReadsFirst | src/Netaxept/Response/Query.php:88-91 | `(string) $xml->Name` is the text of the first child so named, and `""` when there is none |
| Xml.Collect | src/Netaxept/Exception/BBSException.php:22-24 | The flattened array has distinct keys and no more entries than children. A key is present exactly when some child maps to it, and it holds the text of the last child that does |
| Xml.CollectDistinct | src/Netaxept/Response/Query.php:137-139 | When the children's keys are distinct, the array is one `(key, text)` entry per child, in document order |
| ExceptionFactory.ClassMap | src/Netaxept/Exception/Factory.php:22-43 | The map has one entry per constructor argument, keyed by the nine discriminants in the map's own order |
| ExceptionFactory.ClassMapWellFormed | src/Netaxept/Exception/Factory.php:33-43 | No discriminant occurs twice in the map |
| ExceptionFactory.Discriminant | src/Netaxept/Exception/Factory.php:48 | The discriminant is the `Error` element's `xsi:type` attribute, and `""` when that attribute or the `Error` element is absent |
| ExceptionFactory.Message | src/Netaxept/Exception/Exception.php:20 | The message is the text of the first `Message` child of `Error`, and `""` when there is none |
| ExceptionFactory.SelectClass | src/Netaxept/Exception/Factory.php:50-55 | The lookup succeeds exactly when the map has the discriminant with a non-empty class, and then returns that class. Otherwise it raises "Unable to instantiate Exception class for <type>", so any discriminant outside the nine fails |
| ExceptionFactory.NewException | src/Netaxept/Exception/BBSException.php:20-27 | The constructed exception is of the chosen class and carries `Error/Message`. It carries a result exactly when the class is `BBSException` |
| ExceptionFactory.BBSResultKeys | src/Netaxept/Exception/BBSException.php:32-35 | `getResult` returns an array with distinct keys, at most one per child of `Error/Result`, and a key exactly when some child's `lcfirst` tag name is that key |
| ExceptionFactory.GetException | src/Netaxept/Exception/Factory.php:46-58 | Corrected `getException` (see ## Findings): it never returns a value; it always raises. It raises the invalid-argument failure exactly when the lookup fails, with the "Unable to instantiate" message. Otherwise it raises the selected class's exception built from the document: that class, `Error/Message`, and the `Error/Result` array exactly for `BBSException`. This holds for an injected class as for a default one |
| ExceptionFactory.OverrideClassMap | src/Netaxept/Exception/Factory.php:22-43 | Overriding the i-th constructor argument replaces exactly the i-th map entry |
| ExceptionFactory.OverrideIsLocal | src/Netaxept/Exception/Factory.php:22-43 | After overriding one discriminant's class, that discriminant selects the new class; every other discriminant selects as before |
| ExceptionFactory.DefaultEntries | src/Netaxept/Exception/Factory.php:33-43 | Every default entry holds the class whose name is its key |
| ExceptionFactory.ClassNameInjective | src/Netaxept/Exception/Factory.php:33-43 | Different classes have different names |
| ExceptionFactory.DefaultSelectsByName | src/Netaxept/Exception/Factory.php:33-43 | With the default map, discriminant `d` selects class `c` if and only if `c` is named `d`. So the nine discriminants map to nine distinct kinds |
| ExceptionFactory.UnknownDiscriminantFails | src/Netaxept/Exception/Factory.php:50-53 | Under any map, an unknown or empty discriminant raises the "Unable to instantiate" failure and never a generic gateway exception |
| ExceptionFactory.DefaultRaisesNamedClass | src/Netaxept/Exception/Factory.php:46-58 | With the default map, a known discriminant raises the class of that name with `Error/Message`, and with the flattened `Error/Result` only when it is `BBSException` |
| ExceptionFactory.BBSResultExample | src/Netaxept/Exception/BBSException.php:22-24 | `IssuerId`, `ExtraInfoOut` and an empty `MaskedPan` flatten to `issuerId`, `extraInfoOut` and `maskedPan => ''` |
| ExceptionFactory.Instantiate | src/Netaxept/Exception/Factory.php:57 | Given the document, a class constructs its gateway exception. Given a string, its constructor refuses it with a `TypeError` |
| ExceptionFactory.GetExceptionAsWritten | src/Netaxept/Exception/Factory.php:46-58 | As written, a failed lookup raises as before. A successful lookup ends in the chosen class's `TypeError` |
| ExceptionFactory.AsWrittenNeverRaisesGatewayException | src/Netaxept/Exception/Factory.php:57 | For every known discriminant, the code as written raises a `TypeError`, where the corrected `GetException` raises the gateway exception with its message |
| ExceptionFactory.BBSDocumentAsWritten | src/Netaxept/Exception/Factory.php:57 | A `BBSException` document under the default map: as written a `TypeError`, corrected a `BBSException` with message and result |
| Responses.TransactionId | src/Netaxept/Response/Register.php:23-26 | `getTransactionId` is the text of the first `TransactionId` child, and `""` when there is none |
| Responses.NewAbstractResponse | src/Netaxept/Response/AbstractResponse.php:23-34 | Construction succeeds exactly when the root has no `Error` child, and then keeps the node unchanged. Otherwise it raises a response exception with message `Error/ResponseText`, code `(int) Error/ResponseCode` and source `Error/ResponseSource` |
| Responses.ErrorChildAlwaysRaises | src/Netaxept/Response/Exception.php:22-35 | A document with an `Error` child always raises. `getSource` of what it raises is `Error/ResponseSource` |
| Responses.Construct | src/Netaxept/Response/Factory.php:41-43 | Each class receives the whole node. Query and Register succeed exactly when there is no `Error` child, giving their variant. Process always receives the node. A failure is always the in-band error |
| ResponseFactory.ClassMap | src/Netaxept/Response/Factory.php:22-31 | The map's keys are `PaymentInfo`, `ProcessResponse`, `RegisterResponse`, in that order |
| ResponseFactory.ClassMapWellFormed | src/Netaxept/Response/Factory.php:27-31 | No root tag occurs twice in the map |
| ResponseFactory.SelectClass | src/Netaxept/Response/Factory.php:36-41 | The lookup succeeds exactly when the map has the root tag with a non-empty class, and then returns that class. Otherwise it raises "Unable to instantiate response class for <name>", so a root tag outside the map fails |
| ResponseFactory.GetResponse | src/Netaxept/Response/Factory.php:34-44 | A failed lookup raises that failure. Otherwise the result is the chosen class constructed on the whole node |
| ResponseFactory.DefaultSelection | src/Netaxept/Response/Factory.php:28-30 | With the default map, `PaymentInfo` selects Query, `ProcessResponse` Process and `RegisterResponse` Register |
| ResponseFactory.DefaultDispatch | src/Netaxept/Response/Factory.php:41-43 | With the default map: a `PaymentInfo` or `RegisterResponse` root without `Error` yields its variant holding the same node; a `ProcessResponse` root always does; with `Error` they raise the in-band error |
| ResponseFactory.UnknownRootFails | src/Netaxept/Response/Factory.php:36-39 | Under any map, any other root name raises "Unable to instantiate response class for <name>" |
| ResponseFactory.DispatchByNameOnly | src/Netaxept/Response/Factory.php:34-43 | Two documents with the same root name get the same lookup outcome. Each successful response holds its own document |
| ResponseFactory.OverrideIsLocal | src/Netaxept/Response/Factory.php:22-31 | Overriding one constructor argument changes only that root tag's selection |
| Query.StatusNamesDistinct | src/Netaxept/Response/QueryInterface.php:18-30 | The seven status constants are distinct strings: two statuses have the same name if and only if they are the same status |
| Query.CancelledByCustomerExactly | src/Netaxept/Response/Query.php:28-33 | The `!empty` guards add nothing: the customer-cancel test is exactly the four string comparisons |
| Query.TransactionStatus | src/Netaxept/Response/Query.php:23-65 | The status is never `unregistered`. With an error it is `cancelled` or `failed` |
| Query.StatusIsTheDescribedOne | src/Netaxept/Response/Query.php:23-65 | The derived status equals a status `st` if and only if the order-free reference description holds of `st`: error cases first, then annulled, credited, uncaptured by authorization, and captured |
| Query.ErrorStatus | src/Netaxept/Response/Query.php:26-37 | Given an error, the status is `cancelled` exactly when operation is "Terminal", code "17", source "Terminal" or "05" and text "Cancelled by customer."; otherwise `failed` |
| Query.AnnulledIsCancelled | src/Netaxept/Response/Query.php:42-45 | Without error, the annulled flag gives `cancelled` whatever the amounts and the authorized flag |
| Query.CreditedBeforeCaptured | src/Netaxept/Response/Query.php:47-50 | Without error or annulment, a nonzero credited amount gives `credited`, whatever was captured or authorized |
| Query.UncapturedStatus | src/Netaxept/Response/Query.php:52-61 | Without error, annulment, credit or capture, the status is `authorized` if authorized and `pending` otherwise |
| Query.CapturedWhateverAuthorized | src/Netaxept/Response/Query.php:63-64 | Without error, annulment or credit, a nonzero captured amount gives `captured` whatever the authorized flag |
| Query.CancellationOutranksSettlement | src/Netaxept/Response/Query.php:26-45 | An error or an annulment never yields captured, authorized, credited or pending |
| Query.QueryStatus | src/Netaxept/Response/Query.php:40 | The status read from a document is never `unregistered` |
| Query.ReadSummary | src/Netaxept/Response/Query.php:72-81 | Without a `Summary` element every field is the cast of `""`, as SimpleXML reads a missing element |
| Query.MerchantId | src/Netaxept/Response/Query.php:88-91 | `getMerchantId` is the text of the first `MerchantId` child, and `""` when there is none |
| Query.TransactionId | src/Netaxept/Response/Query.php:98-101 | `getTransactionId` is the text of the first `TransactionId` child, and `""` when there is none |
| Query.ReadCustomerInfo | src/Netaxept/Response/Query.php:108-125 | Without a `CustomerInformation` element all thirteen fields are `""` |
| Query.ReadOrderInformation | src/Netaxept/Response/Query.php:151-163 | Without an `OrderInformation` element the four text fields are `""` and the four amounts are the cast of `""` |
| Query.SummaryRoundTrip | src/Netaxept/Response/Query.php:72-81 | `getSummary` of a `Summary` element written from given values reads those values back. The document's status is then the derivation from those values |
| Query.CustomerInfoRoundTrip | src/Netaxept/Response/Query.php:108-125 | `getCustomerInfo` of a `CustomerInformation` element written from thirteen values reads them back, field by field |
| Query.OrderInformationRoundTrip | src/Netaxept/Response/Query.php:151-173 | `getOrderInformation` of an `OrderInformation` element written from eight values reads them back, and `getOrderTotal` is its total |
| Query.OrderTotal | src/Netaxept/Response/Query.php:170-173 | `getOrderTotal()` always equals `getOrderInformation()['total']` |
| Query.History | src/Netaxept/Response/Query.php:132-144 | One array per `History` child, in order. Each has distinct keys, and a key exactly when a tag of that entry has it as its `lcfirst` name |
| Query.HistoryEntryInOrder | src/Netaxept/Response/Query.php:135-140 | An entry whose tags give distinct keys becomes one `(lcfirst(tag), text)` pair per tag, in document order |
| Query.HistoryLaterTagWins | src/Netaxept/Response/Query.php:137-139 | A repeated key holds the text of its last tag |
| QueryString.ParseBuild | src/Netaxept/Api.php:311-313 | For an encoding that never writes `&` or `=`, splitting the built query string gives back every encoded pair, in order |
| Api.New | src/Netaxept/Api.php:82-96 | A factory not supplied is the default one; supplied values are kept |
| Api.GetUri | src/Netaxept/Api.php:304-316 | It fails exactly for names outside `register`, `process`, `query`, `terminal`, with "Named endpoint <name> is unknown." (the literal text for a name without `%`; see "## Left out"). Otherwise it gives the URL for host and path |
| Api.UriShape | src/Netaxept/Api.php:308-313 | Up to its first `?`, the URL is the sandbox or production host followed by the endpoint path. It has a `?` exactly when there are parameters, and after it comes the built query string |
| Api.UriRoundTrip | src/Netaxept/Api.php:304-316 | Reading the query string back out of the URL gives every parameter, encoded, in order. With no parameters it gives none |
| Api.GetParameters | src/Netaxept/Api.php:286-292 | The parameters start with `merchantId` then `token`, holding the configured values. Every other key reads as the caller gave it |
| Api.GetParametersShape | src/Netaxept/Api.php:286-292 | The parameters are the two credentials followed by the caller's array without its own `merchantId` and `token`. That is the caller's whole array exactly when it had neither key |
| Api.ProcessData | src/Netaxept/Api.php:146-148 | Only `transactionId`, `operation` and `transactionAmount` survive. The caller's value wins, and `operation` falls back to the argument |
| Api.ProcessParameters | src/Netaxept/Api.php:146-150 | A process request carries the credentials, the caller's `operation` or else the argument, and the caller's `transactionId` and `transactionAmount`. No other key |
| Api.CallerOperationWins | src/Netaxept/Api.php:146 | When the caller's data has an `operation` key, every operation argument produces the same parameters and the same URL |
| Api.WrapperCodesDistinct | src/Netaxept/Api.php:33-43 | Without a caller `operation`, different codes produce different process requests |
| Api.QueryUri | src/Netaxept/Api.php:107 | The query URL always exists |
| Api.RegisterUri | src/Netaxept/Api.php:126 | The register URL always exists |
| Api.ProcessUri | src/Netaxept/Api.php:150 | The process URL always exists |
| Api.PerformRequest | src/Netaxept/Api.php:266-277 | A status the transport returns that is not 200 raises "Request failed.". With status 200, an `Exception` root raises what the corrected exception factory raises (see ## Findings), and any other root gives exactly what the response factory gives for the body. A success holds the reply's own body, which had status 200 and another root. A gateway exception comes only from an `Exception` root, and a response exception only from a body with an `Error` child |
| Api.GetTransaction | src/Netaxept/Api.php:105-115 | The request's Query response is returned unchanged; any other response raises "Invalid response"; a failure of the request passes through. So a returned value holds the body fetched from the query URL, with no `Error` child, and a non-200 reply raises "Request failed." |
| Api.RegisterTransaction | src/Netaxept/Api.php:124-133 | The request's Register response is returned unchanged; any other response raises "Invalid response"; a failure of the request passes through. So a returned value holds the body fetched from the register URL, with no `Error` child, and a non-200 reply raises "Request failed." |
| Api.ProcessTransaction | src/Netaxept/Api.php:142-157 | The request's Process response is returned unchanged; any other response raises "Invalid response"; a failure of the request passes through. So a returned value holds the body fetched from the process URL for that operation, and a non-200 reply raises "Request failed." |
| Api.Register | src/Netaxept/Api.php:166-169 | Its outcome is exactly `registerTransaction`'s for the same data |
| Api.Verify | src/Netaxept/Api.php:178-181 | Its outcome is exactly `processTransaction`'s with operation `verify`, so it requests the process URL built with that code |
| Api.Authorize | src/Netaxept/Api.php:190-193 | Its outcome is exactly `processTransaction`'s with operation `auth`, so it requests the process URL built with that code |
| Api.Cancel | src/Netaxept/Api.php:202-205 | Its outcome is exactly `processTransaction`'s with operation `annul`, so it requests the process URL built with that code |
| Api.Capture | src/Netaxept/Api.php:214-217 | Its outcome is exactly `processTransaction`'s with operation `capture`, so it requests the process URL built with that code |
| Api.Sale | src/Netaxept/Api.php:226-229 | Its outcome is exactly `processTransaction`'s with operation `sale`, so it requests the process URL built with that code |
| Api.Refund | src/Netaxept/Api.php:238-241 | Its outcome is exactly `processTransaction`'s with operation `credit`, so it requests the process URL built with that code |
| Api.GetTerminalUri | src/Netaxept/Api.php:251-256 | The URL is host + `Terminal/Default.aspx?merchantId=<m>&transactionId=<t>`, each part through the encoding |
| Api.TerminalUriOmitsToken | src/Netaxept/Api.php:253 | The terminal URL's query reads back as exactly merchant id then transaction id. The token is never among its keys |
| Api.SandboxTerminalUriExample | tests/TestCase/Netaxept/ApiTerminalTest.php:24-30 | The sandbox URL for merchant `placeholdermerchant` and transaction `123456` |
| Api.ProductionTerminalUriExample | tests/TestCase/Netaxept/ApiTerminalTest.php:35-41 | The production URL for the same example |

## Left out

- The Guzzle transport and the body read are not modelled; they are I/O. The client is a function from URL to `(status, parsed body)`.
- `simplexml_load_string` is not modelled; it is a foreign parser. The model starts from a parsed tree. A body that does not parse (`false` reaching `exceptionOnError`) is not modelled.
- `http_build_query`'s percent-encoding is an uninterpreted function. Only the `key=value&...` structure is modelled. The `Uri` object is its string.
- The `(int)` cast and `filter_var(..., FILTER_VALIDATE_BOOLEAN)` are uninterpreted functions; this includes the cast's saturation to the platform integer. The round trips assume a rendering these casts read back.
- PHP's integer keys and the loose comparison inside `in_array` are not modelled. All array keys are strings.
- Request parameter values are strings. `http_build_query` has further cases the model does not include: it skips `null` values, writes booleans as `1`/`0`, and expands a nested array to `k[sub]=v`. So the query-string round trip (`Api.UriRoundTrip`) is stated for string-valued data only.
- Arbitrary injected classes are not modelled. A factory slot holds one of the library's own classes, or nothing.
- The `Process` response class, `hasError`/`getError` and the other exception classes' own files are not part of this model. A Process response is the node handed to its constructor. The error record is an explicit optional argument of the status derivation. The other exception classes are assumed to inherit the base constructor.
- `Api.GetTransaction`: the second `isInstanceOf` check (`ErrorInterface`) is folded into the first, because the only query class, `Query`, implements both interfaces.
- Api.PerformRequest: the `Exception` branch, and so every operation built on it, uses the corrected `ExceptionFactory.GetException`. As written, a known discriminant ends in the constructor's `TypeError` instead, which `ExceptionFactory.GetExceptionAsWritten` models (see ## Findings).
- ExceptionFactory.SelectClass and ResponseFactory.SelectClass: `Webmozart\Assert` passes the message through `sprintf` with the checked value. The model takes the message to be the literal text "Unable to instantiate ... for <name>". That is exact only for a discriminant or root tag without `%`. With a `%` the text differs, and PHP 8 can throw `ValueError` or `ArgumentCountError` instead (src/Netaxept/Exception/Factory.php:50-53, src/Netaxept/Response/Factory.php:36-39).
- Api.GetUri: `Assert::keyExists` also passes "Named endpoint {$endpoint} is unknown." through `sprintf` with the checked key (src/Netaxept/Api.php:306). The model's literal failure message is exact only for an endpoint name without `%`. With a `%` PHP formats a different text, or PHP 8 throws `ValueError` or `ArgumentCountError` instead. Which names fail is unaffected.
- Transport errors are not modelled. The HTTP function is total and returns a status. The default Guzzle client (src/Netaxept/Api.php:94) throws its own exception for a 4xx or 5xx reply inside `get` (src/Netaxept/Api.php:268), before the status assertion runs. So "Request failed." is modelled only for a non-200 status that the transport returns.
- PHP's undefined-index notice is not modelled. Reading a missing key of a class map (src/Netaxept/Exception/Factory.php:51, src/Netaxept/Response/Factory.php:37) emits it before the assertion. An error handler that turns notices into exceptions would raise that exception instead of "Unable to instantiate ...".
- Some tests no longer match the code. They are not used:
  - tests/TestCase/Netaxept/ApiTest.php:179 passes the HTTP client where the constructor expects the exception factory;
  - tests/TestCase/Netaxept/ApiProcessTest.php:50 and :74 expect exception classes that the map does not contain.

## Findings

| source | as written | input that shows it | evidently intended | confidence | as-written member | corrected member |
|---|---|---|---|---|---|---|
| src/Netaxept/Exception/Factory.php:57 | `new $exceptionClass((string) $xml->Error->Message)` hands the message string to a constructor declared to take `\SimpleXMLElement` (Exception.php:18, BBSException.php:20) | an `Exception` document whose `Error` has `xsi:type="BBSException"`: PHP raises a `TypeError`, and message and result are lost | `new $exceptionClass($xml)`, so the class reads `Error/Message` and, for BBS, `Error/Result` itself | not executed; high for `BBSException` and `Exception`, whose constructors declare `\SimpleXMLElement` | ExceptionFactory.AsWrittenNeverRaisesGatewayException | ExceptionFactory.GetException |

=== FILE: api.dfy ===
/**
 * The gateway client: building the request parameters and URL for each
 * endpoint, one GET per call, and routing the reply body either to the
 * exception factory (root `Exception`) or to the response factory.
 * The HTTP transport and the percent-encoding are parameters.
 */
module Api {
  import opened Optional
  import opened Php
  import opened Xml
  import opened Failures
  import opened Responses
  import QueryString
  import ExceptionFactory
  import ResponseFactory

  const ProductionUrl: string := "https://epayment.nets.eu/"
  const SandboxUrl: string := "https://test.epayment.nets.eu/"

  const OperationAuth: string := "auth"
  const OperationVerify: string := "verify"
  const OperationSale: string := "sale"
  const OperationCapture: string := "capture"
  const OperationRefund: string := "credit"
  const OperationCancel: string := "annul"

  /** Endpoint name to path. */
  const Endpoints: map<string, string> := map[
    "register" := "Netaxept/Register.aspx",
    "process" := "Netaxept/Process.aspx",
    "query" := "Netaxept/Query.aspx",
    "terminal" := "Terminal/Default.aspx"
  ]

  /** The only keys the process endpoint forwards from the caller's data. */
  const ProcessKeys: set<string> := {"transactionId", "operation", "transactionAmount"}

  const CredentialKeys: set<string> := {"merchantId", "token"}

  const RequestFailed: string := "Request failed."
  const InvalidResponse: string := "Invalid response"

  /** The client's immutable configuration. */
  datatype Api = Api(
    merchantId: string,
    token: string,
    responseFactory: ResponseFactory.Factory,
    exceptionFactory: ExceptionFactory.Factory,
    sandbox: bool)

  /** What the HTTP client hands back for one GET: status code and the parsed body. */
  datatype HttpReply = HttpReply(status: int, body: Node)

  /** The constructor: a factory not supplied is the default one. */
  function New(merchantId: string, token: string, responseFactory: Option<ResponseFactory.Factory>,
               exceptionFactory: Option<ExceptionFactory.Factory>, sandbox: bool): (api: Api)
    ensures responseFactory.None? ==> api.responseFactory == ResponseFactory.Default
    ensures exceptionFactory.None? ==> api.exceptionFactory == ExceptionFactory.Default
    ensures responseFactory.Some? ==> api.responseFactory == responseFactory.value
    ensures exceptionFactory.Some? ==> api.exceptionFactory == exceptionFactory.value
    ensures api.merchantId == merchantId && api.token == token && api.sandbox == sandbox
  {
    Api(merchantId, token, responseFactory.GetOr(ResponseFactory.Default),
        exceptionFactory.GetOr(ExceptionFactory.Default), sandbox)
  }

  function BaseUrl(api: Api): string {
    if api.sandbox then SandboxUrl else ProductionUrl
  }

  function UnknownEndpointMessage(endpoint: string): string {
    "Named endpoint " + endpoint + " is unknown."
  }

  /** Everything of a URL before its first `?`. */
  function PathOf(uri: string): string {
    if uri == [] || uri[0] == '?' then "" else [uri[0]] + PathOf(uri[1..])
  }

  /** Everything of a URL after its first `?`; empty when there is none. */
  function QueryOf(uri: string): string {
    if uri == [] then "" else if uri[0] == '?' then uri[1..] else QueryOf(uri[1..])
  }

  lemma {:induction false} SplitAtQuestionMark(a: string, b: string)
    requires '?' !in a
    ensures PathOf(a) == a && QueryOf(a) == ""
    ensures PathOf(a + "?" + b) == a && QueryOf(a + "?" + b) == b
  {
    if a != [] {
      SplitAtQuestionMark(a[1..], b);
      assert (a + "?" + b)[1..] == a[1..] + "?" + b;
      assert [a[0]] + a[1..] == a;
    } else {
      assert a + "?" + b == "?" + b;
    }
  }

  /** No endpoint path contains a `?`, so the first `?` of a URL starts its query string. */
  lemma PathsHaveNoQuery(endpoint: string)
    requires endpoint in Endpoints
    ensures '?' !in Endpoints[endpoint]
  {
  }

  /**
   * The URL for a named endpoint: a name outside the four-entry table fails;
   * otherwise host and path, then `?` and the query string only when there
   * are parameters.
   */
  function GetUri(api: Api, endpoint: string, params: PhpArray<string>, enc: string -> string): (r: Outcome<string>)
    ensures r.Raised? <==> endpoint !in {"register", "process", "query", "terminal"}
    ensures r.Raised? ==> r.failure == InvalidArgument(UnknownEndpointMessage(endpoint))
    ensures r.Ok? ==> r.value == Url(api, Endpoints[endpoint], params, enc)
  {
    if endpoint in Endpoints then Ok(Url(api, Endpoints[endpoint], params, enc))
    else Raised(InvalidArgument(UnknownEndpointMessage(endpoint)))
  }

  /** Host and path, then `?` and the query string only when there are parameters. */
  function Url(api: Api, path: string, params: PhpArray<string>, enc: string -> string): string {
    if params != [] then BaseUrl(api) + path + "?" + QueryString.Build(params, enc) else BaseUrl(api) + path
  }

  /** A built URL splits at its first `?` into host and path, and the query string; no `?` without parameters. */
  lemma UriShape(api: Api, endpoint: string, params: PhpArray<string>, enc: string -> string)
    requires GetUri(api, endpoint, params, enc).Ok?
    ensures var u := GetUri(api, endpoint, params, enc).value;
      && PathOf(u) == BaseUrl(api) + Endpoints[endpoint]
      && ('?' in u <==> params != [])
      && (params != [] ==> QueryOf(u) == QueryString.Build(params, enc))
  {
    PathsHaveNoQuery(endpoint);
    assert '?' !in BaseUrl(api);
    SplitAtQuestionMark(BaseUrl(api) + Endpoints[endpoint], QueryString.Build(params, enc));
  }

  /** Reading the query string back out of a built URL gives every parameter, encoded, in order. */
  lemma UriRoundTrip(api: Api, endpoint: string, params: PhpArray<string>, enc: string -> string)
    requires QueryString.SeparatorFree(enc)
    requires GetUri(api, endpoint, params, enc).Ok?
    ensures QueryString.Parse(QueryOf(GetUri(api, endpoint, params, enc).value)) == QueryString.Encoded(params, enc)
  {
    PathsHaveNoQuery(endpoint);
    var base := BaseUrl(api) + Endpoints[endpoint];
    assert '?' !in BaseUrl(api);
    SplitAtQuestionMark(base, QueryString.Build(params, enc));
    QueryString.ParseBuild(params, enc);
  }

  /** The parameters of every request: merchant id and token first, then the caller's other keys. */
  function GetParameters(api: Api, params: PhpArray<string>): (r: PhpArray<string>)
    ensures |r| >= 2 && r[0] == ("merchantId", api.merchantId) && r[1] == ("token", api.token)
    ensures Get(r, "merchantId") == Some(api.merchantId) && Get(r, "token") == Some(api.token)
    ensures forall k :: k !in CredentialKeys ==> Get(r, k) == Get(params, k)
    ensures WellFormed(params) ==> WellFormed(r)
  {
    Union([("merchantId", api.merchantId), ("token", api.token)], params)
  }

  /** The caller's own credential keys are dropped; the rest keep their order. */
  lemma GetParametersShape(api: Api, params: PhpArray<string>)
    ensures GetParameters(api, params) == [("merchantId", api.merchantId), ("token", api.token)] + Remove(params, CredentialKeys)
    ensures params == Remove(params, CredentialKeys) <==> !HasKey(params, "merchantId") && !HasKey(params, "token")
  {
    var creds := [("merchantId", api.merchantId), ("token", api.token)];
    assert creds[0].0 == "merchantId" && creds[1].0 == "token";
    assert KeySet(creds) == CredentialKeys;
    RemoveNothing(params, CredentialKeys);
  }

  /** Removing keys leaves an array unchanged exactly when it has none of them. */
  lemma RemoveNothing(a: PhpArray<string>, ks: set<string>)
    ensures a == Remove(a, ks) <==> forall k :: k in ks ==> !HasKey(a, k)
  {
    if forall k :: k in ks ==> !HasKey(a, k) {
      forall i | 0 <= i < |a| ensures a[i].0 !in ks {
        if a[i].0 in ks {
          assert HasKey(a, a[i].0);
        }
      }
      RemoveKeepsAll(a, ks);
    } else {
      var k :| k in ks && HasKey(a, k);
      assert Get(Remove(a, ks), k) == None;
    }
  }

  lemma {:induction false} RemoveKeepsAll(a: PhpArray<string>, ks: set<string>)
    requires forall i :: 0 <= i < |a| ==> a[i].0 !in ks
    ensures Remove(a, ks) == a
  {
    if a != [] {
      RemoveKeepsAll(a[1..], ks);
      assert [a[0]] + a[1..] == a;
    }
  }

  /** What the process endpoint sends under `k`: nothing off the allowlist, the caller's value first. */
  function ProcessValue(data: PhpArray<string>, operation: string, k: string): Option<string> {
    if k !in ProcessKeys then None
    else if HasKey(data, k) then Get(data, k)
    else if k == "operation" then Some(operation)
    else None
  }

  /**
   * The process endpoint's data: the operation argument added unless the
   * caller's data has one, then every key outside the allowlist dropped.
   */
  function ProcessData(data: PhpArray<string>, operation: string): (r: PhpArray<string>)
    ensures forall k :: Get(r, k) == ProcessValue(data, operation, k)
    ensures WellFormed(data) ==> WellFormed(r)
  {
    Restrict(Union(data, [("operation", operation)]), ProcessKeys)
  }

  /**
   * The parameters a process request sends: the credentials and the three
   * allowlisted keys only, with a caller's `operation` winning over the argument.
   */
  function ProcessParameters(api: Api, data: PhpArray<string>, operation: string): (p: PhpArray<string>)
    ensures Get(p, "merchantId") == Some(api.merchantId) && Get(p, "token") == Some(api.token)
    ensures Get(p, "operation") == Some(Get(data, "operation").GetOr(operation))
    ensures Get(p, "transactionId") == Get(data, "transactionId")
    ensures Get(p, "transactionAmount") == Get(data, "transactionAmount")
    ensures forall k :: k !in ProcessKeys + CredentialKeys ==> !HasKey(p, k)
    ensures WellFormed(data) ==> WellFormed(p)
  {
    GetParameters(api, ProcessData(data, operation))
  }

  /** The process request URL; the endpoint is known, so it always exists. */
  function ProcessUri(api: Api, data: PhpArray<string>, operation: string, enc: string -> string): (u: string)
    ensures GetUri(api, "process", ProcessParameters(api, data, operation), enc) == Ok(u)
  {
    GetUri(api, "process", ProcessParameters(api, data, operation), enc).value
  }

  function QueryUri(api: Api, transactionId: string, enc: string -> string): (u: string)
    ensures GetUri(api, "query", GetParameters(api, [("transactionId", transactionId)]), enc) == Ok(u)
  {
    GetUri(api, "query", GetParameters(api, [("transactionId", transactionId)]), enc).value
  }

  function RegisterUri(api: Api, data: PhpArray<string>, enc: string -> string): (u: string)
    ensures GetUri(api, "register", GetParameters(api, data), enc) == Ok(u)
  {
    GetUri(api, "register", GetParameters(api, data), enc).value
  }

  /**
   * One GET: a status other than 200 fails before the body is looked at; a
   * root `Exception` raises through the exception factory; anything else
   * goes to the response factory.
   */
  function PerformRequest(api: Api, uri: string, get: string -> HttpReply, casts: Casts): (r: Outcome<Response>)
    ensures get(uri).status != 200 ==> r == Raised(InvalidArgument(RequestFailed))
    ensures get(uri).status == 200 && get(uri).body.name == "Exception" ==>
      r == Raised(ExceptionFactory.GetException(api.exceptionFactory, get(uri).body))
    ensures get(uri).status == 200 && get(uri).body.name != "Exception" ==>
      r == ResponseFactory.GetResponse(api.responseFactory, get(uri).body, casts)
    ensures r.Ok? ==> get(uri).status == 200 && get(uri).body.name != "Exception" && r.value.xml == get(uri).body
    ensures r.Raised? && r.failure.GatewayException? ==> get(uri).body.name == "Exception"
    ensures r.Raised? && r.failure.ResponseException? ==> HasChild(get(uri).body, "Error")
  {
    var reply := get(uri);
    if reply.status != 200 then Raised(InvalidArgument(RequestFailed))
    else if reply.body.name == "Exception" then
      Raised(ExceptionFactory.GetException(api.exceptionFactory, reply.body))
    else ResponseFactory.GetResponse(api.responseFactory, reply.body, casts)
  }

  /** `getTransaction`: a query that reaches the caller is a Query response without an `Error` child. */
  function GetTransaction(api: Api, transactionId: string, get: string -> HttpReply, enc: string -> string, casts: Casts): (r: Outcome<Response>)
    ensures r.Ok? ==> r.value.QueryResponse? && r.value.xml == get(QueryUri(api, transactionId, enc)).body
    ensures r.Ok? ==> !HasChild(r.value.xml, "Error")
    ensures get(QueryUri(api, transactionId, enc)).status != 200 ==> r == Raised(InvalidArgument(RequestFailed))
    ensures var p := PerformRequest(api, QueryUri(api, transactionId, enc), get, casts);
      r == if p.Ok? && !p.value.QueryResponse? then Raised(InvalidArgument(InvalidResponse)) else p
  {
    var uri := QueryUri(api, transactionId, enc);
    var response :- PerformRequest(api, uri, get, casts);
    if response.QueryResponse? then Ok(response) else Raised(InvalidArgument(InvalidResponse))
  }

  function RegisterTransaction(api: Api, data: PhpArray<string>, get: string -> HttpReply, enc: string -> string, casts: Casts): (r: Outcome<Response>)
    ensures r.Ok? ==> r.value.RegisterResponse? && r.value.xml == get(RegisterUri(api, data, enc)).body
    ensures r.Ok? ==> !HasChild(r.value.xml, "Error")
    ensures get(RegisterUri(api, data, enc)).status != 200 ==> r == Raised(InvalidArgument(RequestFailed))
    ensures var p := PerformRequest(api, RegisterUri(api, data, enc), get, casts);
      r == if p.Ok? && !p.value.RegisterResponse? then Raised(InvalidArgument(InvalidResponse)) else p
  {
    var uri := RegisterUri(api, data, enc);
    var response :- PerformRequest(api, uri, get, casts);
    if response.RegisterResponse? then Ok(response) else Raised(InvalidArgument(InvalidResponse))
  }

  function ProcessTransaction(api: Api, data: PhpArray<string>, operation: string, get: string -> HttpReply,
                              enc: string -> string, casts: Casts): (r: Outcome<Response>)
    ensures r.Ok? ==> r.value.ProcessHandoff? && r.value.xml == get(ProcessUri(api, data, operation, enc)).body
    ensures get(ProcessUri(api, data, operation, enc)).status != 200 ==> r == Raised(InvalidArgument(RequestFailed))
    ensures var p := PerformRequest(api, ProcessUri(api, data, operation, enc), get, casts);
      r == if p.Ok? && !p.value.ProcessHandoff? then Raised(InvalidArgument(InvalidResponse)) else p
  {
    var uri := ProcessUri(api, data, operation, enc);
    var response :- PerformRequest(api, uri, get, casts);
    if response.ProcessHandoff? then Ok(response) else Raised(InvalidArgument(InvalidResponse))
  }

  /** `register`: the same request as `registerTransaction`. */
  function Register(api: Api, data: PhpArray<string>, get: string -> HttpReply, enc: string -> string, casts: Casts): (r: Outcome<Response>)
    ensures r.Ok? ==> r.value.RegisterResponse? && r.value.xml == get(RegisterUri(api, data, enc)).body
    ensures get(RegisterUri(api, data, enc)).status != 200 ==> r == Raised(InvalidArgument(RequestFailed))
    ensures r == RegisterTransaction(api, data, get, enc, casts)
  {
    RegisterTransaction(api, data, get, enc, casts)
  }

  /*
   * The process wrappers: each is `processTransaction` with its fixed
   * operation code, so the URL it requests is the process URL for that code.
   */

  function Verify(api: Api, data: PhpArray<string>, get: string -> HttpReply, enc: string -> string, casts: Casts): (r: Outcome<Response>)
    ensures r.Ok? ==> r.value.ProcessHandoff? && r.value.xml == get(ProcessUri(api, data, "verify", enc)).body
    ensures get(ProcessUri(api, data, "verify", enc)).status != 200 ==> r == Raised(InvalidArgument(RequestFailed))
    ensures r == ProcessTransaction(api, data, "verify", get, enc, casts)
  {
    ProcessTransaction(api, data, OperationVerify, get, enc, casts)
  }

  function Authorize(api: Api, data: PhpArray<string>, get: string -> HttpReply, enc: string -> string, casts: Casts): (r: Outcome<Response>)
    ensures r.Ok? ==> r.value.ProcessHandoff? && r.value.xml == get(ProcessUri(api, data, "auth", enc)).body
    ensures get(ProcessUri(api, data, "auth", enc)).status != 200 ==> r == Raised(InvalidArgument(RequestFailed))
    ensures r == ProcessTransaction(api, data, "auth", get, enc, casts)
  {
    ProcessTransaction(api, data, OperationAuth, get, enc, casts)
  }

  function Cancel(api: Api, data: PhpArray<string>, get: string -> HttpReply, enc: string -> string, casts: Casts): (r: Outcome<Response>)
    ensures r.Ok? ==> r.value.ProcessHandoff? && r.value.xml == get(ProcessUri(api, data, "annul", enc)).body
    ensures get(ProcessUri(api, data, "annul", enc)).status != 200 ==> r == Raised(InvalidArgument(RequestFailed))
    ensures r == ProcessTransaction(api, data, "annul", get, enc, casts)
  {
    ProcessTransaction(api, data, OperationCancel, get, enc, casts)
  }

  function Capture(api: Api, data: PhpArray<string>, get: string -> HttpReply, enc: string -> string, casts: Casts): (r: Outcome<Response>)
    ensures r.Ok? ==> r.value.ProcessHandoff? && r.value.xml == get(ProcessUri(api, data, "capture", enc)).body
    ensures get(ProcessUri(api, data, "capture", enc)).status != 200 ==> r == Raised(InvalidArgument(RequestFailed))
    ensures r == ProcessTransaction(api, data, "capture", get, enc, casts)
  {
    ProcessTransaction(api, data, OperationCapture, get, enc, casts)
  }

  function Sale(api: Api, data: PhpArray<string>, get: string -> HttpReply, enc: string -> string, casts: Casts): (r: Outcome<Response>)
    ensures r.Ok? ==> r.value.ProcessHandoff? && r.value.xml == get(ProcessUri(api, data, "sale", enc)).body
    ensures get(ProcessUri(api, data, "sale", enc)).status != 200 ==> r == Raised(InvalidArgument(RequestFailed))
    ensures r == ProcessTransaction(api, data, "sale", get, enc, casts)
  {
    ProcessTransaction(api, data, OperationSale, get, enc, casts)
  }

  function Refund(api: Api, data: PhpArray<string>, get: string -> HttpReply, enc: string -> string, casts: Casts): (r: Outcome<Response>)
    ensures r.Ok? ==> r.value.ProcessHandoff? && r.value.xml == get(ProcessUri(api, data, "credit", enc)).body
    ensures get(ProcessUri(api, data, "credit", enc)).status != 200 ==> r == Raised(InvalidArgument(RequestFailed))
    ensures r == ProcessTransaction(api, data, "credit", get, enc, casts)
  {
    ProcessTransaction(api, data, OperationRefund, get, enc, casts)
  }

  /** The six codes differ, so without a caller `operation` key the six wrappers send different requests. */
  lemma WrapperCodesDistinct(api: Api, data: PhpArray<string>, op1: string, op2: string)
    requires !HasKey(data, "operation") && op1 != op2
    ensures ProcessParameters(api, data, op1) != ProcessParameters(api, data, op2)
  {
    assert Get(ProcessParameters(api, data, op1), "operation") == Some(op1);
  }

  /** A caller `operation` key overrides the wrapper: every operation argument then sends the same request. */
  lemma CallerOperationWins(api: Api, data: PhpArray<string>, op1: string, op2: string, enc: string -> string)
    requires HasKey(data, "operation")
    ensures ProcessParameters(api, data, op1) == ProcessParameters(api, data, op2)
    ensures ProcessUri(api, data, op1, enc) == ProcessUri(api, data, op2, enc)
  {
    assert Union(data, [("operation", op1)]) == Union(data, [("operation", op2)]) by {
      UnionCovered(data, [("operation", op1)]);
      UnionCovered(data, [("operation", op2)]);
    }
  }

  /** A right-hand array whose keys are all on the left adds nothing to the union. */
  lemma UnionCovered(a: PhpArray<string>, b: PhpArray<string>)
    requires forall i :: 0 <= i < |b| ==> HasKey(a, b[i].0)
    ensures Union(a, b) == a
  {
    var rest := Remove(b, KeySet(a));
    if rest != [] {
      assert false;
    }
  }

  /** The hosted payment page's parameters: merchant id then transaction id. */
  function TerminalParameters(api: Api, transactionId: string): PhpArray<string> {
    [("merchantId", api.merchantId), ("transactionId", transactionId)]
  }

  /** `getTerminalUri`: a pure URL, no request is made. */
  function GetTerminalUri(api: Api, transactionId: string, enc: string -> string): (u: string)
    ensures u == BaseUrl(api) + "Terminal/Default.aspx" + "?" + enc("merchantId") + "=" + enc(api.merchantId) + "&"
                 + enc("transactionId") + "=" + enc(transactionId)
  {
    TerminalUriValue(api, transactionId, enc);
    GetUri(api, "terminal", TerminalParameters(api, transactionId), enc).value
  }

  lemma TerminalUriValue(api: Api, transactionId: string, enc: string -> string)
    ensures GetUri(api, "terminal", TerminalParameters(api, transactionId), enc).Ok?
    ensures GetUri(api, "terminal", TerminalParameters(api, transactionId), enc).value == BaseUrl(api) + "Terminal/Default.aspx" + "?" + enc("merchantId") + "=" + enc(api.merchantId) + "&"
              + enc("transactionId") + "=" + enc(transactionId)
  {
    var params := TerminalParameters(api, transactionId);
    TerminalQuery(api, transactionId, enc);
    assert GetUri(api, "terminal", params, enc) == Ok(Url(api, "Terminal/Default.aspx", params, enc));
    var x := BaseUrl(api) + "Terminal/Default.aspx" + "?";
    var e1, e2, e3, e4 := enc("merchantId"), enc(api.merchantId), enc("transactionId"), enc(transactionId);
    AppendAssoc(x, e1 + "=" + e2 + "&" + e3 + "=", e4);
    AppendAssoc(x, e1 + "=" + e2 + "&" + e3, "=");
    AppendAssoc(x, e1 + "=" + e2 + "&", e3);
    AppendAssoc(x, e1 + "=" + e2, "&");
    AppendAssoc(x, e1 + "=", e2);
    AppendAssoc(x, e1, "=");
  }

  lemma AppendAssoc(x: string, a: string, b: string)
    ensures x + (a + b) == x + a + b
  {
  }

  lemma TerminalQuery(api: Api, transactionId: string, enc: string -> string)
    ensures QueryString.Build(TerminalParameters(api, transactionId), enc) ==
      enc("merchantId") + "=" + enc(api.merchantId) + "&" + enc("transactionId") + "=" + enc(transactionId)
  {
    var params := TerminalParameters(api, transactionId);
    QueryString.BuildTwo(params[0], params[1], enc);
    assert params == [params[0], params[1]];
  }

  /** The terminal URL carries exactly merchant id and transaction id, in that order, and no token. */
  lemma TerminalUriOmitsToken(api: Api, transactionId: string, enc: string -> string)
    requires QueryString.SeparatorFree(enc)
    ensures QueryString.Parse(QueryOf(GetTerminalUri(api, transactionId, enc))) ==
      [(enc("merchantId"), enc(api.merchantId)), (enc("transactionId"), enc(transactionId))]
    ensures forall i :: 0 <= i < |TerminalParameters(api, transactionId)| ==> TerminalParameters(api, transactionId)[i].0 != "token"
  {
    UriRoundTrip(api, "terminal", TerminalParameters(api, transactionId), enc);
  }

  /** The sandbox URL of the terminal example, with an encoding that leaves those strings alone. */
  lemma SandboxTerminalUriExample(enc: string -> string, responses: ResponseFactory.Factory, exceptions: ExceptionFactory.Factory)
    requires enc("merchantId") == "merchantId" && enc("placeholdermerchant") == "placeholdermerchant"
    requires enc("transactionId") == "transactionId" && enc("123456") == "123456"
    ensures GetTerminalUri(Api("placeholdermerchant", "placeholdertoken", responses, exceptions, true), "123456", enc)
      == "https://test.epayment.nets.eu/" + "Terminal/Default.aspx" + "?" + "merchantId" + "=" + "placeholdermerchant"
         + "&" + "transactionId" + "=" + "123456"
  {
  }

  /** The production URL of the same example. */
  lemma ProductionTerminalUriExample(enc: string -> string, responses: ResponseFactory.Factory, exceptions: ExceptionFactory.Factory)
    requires enc("merchantId") == "merchantId" && enc("placeholdermerchant") == "placeholdermerchant"
    requires enc("transactionId") == "transactionId" && enc("123456") == "123456"
    ensures GetTerminalUri(Api("placeholdermerchant", "placeholdertoken", responses, exceptions, false), "123456", enc)
      == "https://epayment.nets.eu/" + "Terminal/Default.aspx" + "?" + "merchantId" + "=" + "placeholdermerchant"
         + "&" + "transactionId" + "=" + "123456"
  {
  }
}

=== FILE: exception_factory.dfy ===
/**
 * The exception factory: reads the `xsi:type` discriminant of the `Error`
 * element of an `Exception` document, looks it up in a class map whose
 * nine entries the caller may replace one by one, and raises the chosen
 * class with the `Error/Message` text. A BBS exception also flattens the
 * children of `Error/Result` into its result array.
 */
module ExceptionFactory {
  import opened Optional
  import opened Php
  import opened Xml
  import opened Failures

  /**
   * The nine constructor arguments, in declaration order. `None` stands for
   * an empty argument (null or ''), which the factory refuses to instantiate.
   */
  datatype Factory = Factory(
    authenticationExceptionClass: Option<ExceptionClass>,
    bbsExceptionClass: Option<ExceptionClass>,
    genericErrorClass: Option<ExceptionClass>,
    merchantTranslationExceptionClass: Option<ExceptionClass>,
    notSupportedExceptionClass: Option<ExceptionClass>,
    queryExceptionClass: Option<ExceptionClass>,
    securityExceptionClass: Option<ExceptionClass>,
    uniqueTransactionIdExceptionClass: Option<ExceptionClass>,
    validationExceptionClass: Option<ExceptionClass>)

  /** The factory built with every argument left at its default. */
  const Default: Factory := Factory(
    Some(AuthenticationException), Some(BBSException), Some(GenericError),
    Some(MerchantTranslationException), Some(NotSupportedException), Some(QueryException),
    Some(SecurityException), Some(UniqueTransactionIdException), Some(ValidationException))

  /** The discriminants the map knows, in the order the map lists them. */
  const Discriminants: seq<string> := [
    "AuthenticationException", "BBSException", "GenericError", "MerchantTranslationException",
    "NotSupportedException", "SecurityException", "UniqueTransactionIdException",
    "ValidationException", "QueryException"]

  /** The class map: discriminant to constructor argument. */
  function ClassMap(f: Factory): (m: PhpArray<Option<ExceptionClass>>)
    ensures |m| == |Discriminants|
    ensures forall i :: 0 <= i < |m| ==> m[i].0 == Discriminants[i]
  {
    [ ("AuthenticationException", f.authenticationExceptionClass),
      ("BBSException", f.bbsExceptionClass),
      ("GenericError", f.genericErrorClass),
      ("MerchantTranslationException", f.merchantTranslationExceptionClass),
      ("NotSupportedException", f.notSupportedExceptionClass),
      ("SecurityException", f.securityExceptionClass),
      ("UniqueTransactionIdException", f.uniqueTransactionIdExceptionClass),
      ("ValidationException", f.validationExceptionClass),
      ("QueryException", f.queryExceptionClass) ]
  }

  /** The short name of each class, which is also its default discriminant. */
  function ClassName(c: ExceptionClass): string {
    match c
    case AuthenticationException => "AuthenticationException"
    case BBSException => "BBSException"
    case GenericError => "GenericError"
    case MerchantTranslationException => "MerchantTranslationException"
    case NotSupportedException => "NotSupportedException"
    case QueryException => "QueryException"
    case SecurityException => "SecurityException"
    case UniqueTransactionIdException => "UniqueTransactionIdException"
    case ValidationException => "ValidationException"
  }

  /** `(string) $xml->Error->attributes('xsi', true)->type`. */
  function Discriminant(xml: Node): (d: string)
    ensures HasKey(Child(xml, "Error").attrs, "xsi:type") ==> Get(Child(xml, "Error").attrs, "xsi:type") == Some(d)
    ensures !HasKey(Child(xml, "Error").attrs, "xsi:type") ==> d == ""
    ensures (forall i :: 0 <= i < |xml.children| ==> xml.children[i].name != "Error") ==> d == ""
  {
    Attribute(Child(xml, "Error"), "xsi:type")
  }

  /** `(string) $xml->Error->Message`, the message of every gateway exception. */
  function Message(xml: Node): (m: string)
    ensures var error := Child(xml, "Error");
      && ((forall i :: 0 <= i < |error.children| ==> error.children[i].name != "Message") ==> m == "")
      && (forall i :: FirstAt(error, "Message", i) ==> m == error.children[i].text)
  {
    TextReadsFirst(Child(xml, "Error"), "Message");
    Text(Child(xml, "Error"), "Message")
  }

  /** The BBS exception's result: the children of `Error/Result`, flattened. */
  function BBSResult(xml: Node): PhpArray<string> {
    Flatten(Child(Child(xml, "Error"), "Result").children)
  }

  /** The message of the assertion that refuses an unknown or empty map entry. */
  function UnknownTypeMessage(d: string): string {
    "Unable to instantiate Exception class for " + d
  }

  /** The class the map holds for a discriminant, or the failed assertion. */
  function SelectClass(f: Factory, d: string): (r: Outcome<ExceptionClass>)
    ensures r.Raised? ==> r.failure == InvalidArgument(UnknownTypeMessage(d))
    ensures d !in Discriminants ==> r.Raised?
    ensures r.Ok? ==> Get(ClassMap(f), d) == Some(Some(r.value))
    ensures r.Ok? <==> Get(ClassMap(f), d).Some? && Get(ClassMap(f), d).value.Some?
  {
    var entry: Option<Option<ExceptionClass>> := Get(ClassMap(f), d);
    if entry.Some? && entry.value.Some? then Ok(entry.value.value)
    else Raised(InvalidArgument(UnknownTypeMessage(d)))
  }

  /**
   * `new $class($xml)`: every class takes its message from `Error/Message`;
   * the BBS class additionally keeps the flattened `Error/Result`.
   */
  function NewException(c: ExceptionClass, xml: Node): (e: Failure)
    ensures e.GatewayException? && e.cls == c
    ensures e.message == Message(xml)
    ensures e.result.Some? <==> c == BBSException
  {
    GatewayException(c, Message(xml), if c == BBSException then Some(BBSResult(xml)) else None)
  }

  /** `getResult()` of a BBS exception: the array built at construction. */
  function GetResult(e: Failure): PhpArray<string>
    requires e.GatewayException? && e.cls == BBSException && e.result.Some?
  {
    e.result.value
  }

  /** The result handed back is the flattening of `Error/Result`: one key per distinct lower-cased tag. */
  lemma BBSResultKeys(xml: Node)
    ensures var r := GetResult(NewException(BBSException, xml));
      var cs := Child(Child(xml, "Error"), "Result").children;
      && WellFormed(r)
      && |r| <= |cs|
      && (forall k :: HasKey(r, k) <==> exists i :: 0 <= i < |cs| && FieldKey(cs[i]) == k)
  {
  }

  /**
   * `getException($xml)`: it never returns; the value here is what it raises,
   * either the selected gateway exception or the failed assertion.
   */
  function GetException(f: Factory, xml: Node): (e: Failure)
    ensures e.InvalidArgument? || e.GatewayException?
    ensures e.InvalidArgument? <==> SelectClass(f, Discriminant(xml)).Raised?
    ensures e.InvalidArgument? ==> e.message == UnknownTypeMessage(Discriminant(xml))
    ensures e.GatewayException? ==> e.message == Message(xml)
    ensures e.GatewayException? ==> Discriminant(xml) in Discriminants
    ensures SelectClass(f, Discriminant(xml)).Ok? ==> e == NewException(SelectClass(f, Discriminant(xml)).value, xml)
  {
    match SelectClass(f, Discriminant(xml))
    case Ok(c) => NewException(c, xml)
    case Raised(failure) => failure
  }

  /** No two entries of the class map share a discriminant. */
  lemma ClassMapWellFormed(f: Factory)
    ensures WellFormed(ClassMap(f))
  {
  }

  /** The factory with the constructor argument for discriminant `d` replaced by `c`. */
  function Override(f: Factory, d: string, c: Option<ExceptionClass>): Factory
    requires d in Discriminants
  {
    match d
    case "AuthenticationException" => f.(authenticationExceptionClass := c)
    case "BBSException" => f.(bbsExceptionClass := c)
    case "GenericError" => f.(genericErrorClass := c)
    case "MerchantTranslationException" => f.(merchantTranslationExceptionClass := c)
    case "NotSupportedException" => f.(notSupportedExceptionClass := c)
    case "SecurityException" => f.(securityExceptionClass := c)
    case "UniqueTransactionIdException" => f.(uniqueTransactionIdExceptionClass := c)
    case "ValidationException" => f.(validationExceptionClass := c)
    case "QueryException" => f.(queryExceptionClass := c)
  }

  /** Overriding one argument rewrites exactly the map entry of its discriminant. */
  lemma OverrideClassMap(f: Factory, i: nat, c: Option<ExceptionClass>)
    requires i < |Discriminants|
    ensures ClassMap(Override(f, Discriminants[i], c)) == ClassMap(f)[i := (Discriminants[i], c)]
  {
  }

  /**
   * Replacing one constructor argument changes the class chosen for that
   * discriminant and for no other.
   */
  lemma {:induction false} OverrideIsLocal(f: Factory, d: string, c: ExceptionClass, d': string)
    requires d in Discriminants
    ensures SelectClass(Override(f, d, Some(c)), d) == Ok(c)
    ensures d' != d ==> SelectClass(Override(f, d, Some(c)), d') == SelectClass(f, d')
  {
    var i :| 0 <= i < |Discriminants| && Discriminants[i] == d;
    OverrideClassMap(f, i, Some(c));
    ClassMapWellFormed(f);
    assert ClassMap(f)[i].0 == d;
    GetUpdate(ClassMap(f), i, Some(c), d);
    GetUpdate(ClassMap(f), i, Some(c), d');
  }

  /**
   * With every argument at its default, a discriminant selects a class
   * exactly when it is that class's own name; so the nine discriminants
   * select nine distinct classes.
   */
  lemma {:induction false} DefaultSelectsByName(d: string, c: ExceptionClass)
    ensures SelectClass(Default, d) == Ok(c) <==> ClassName(c) == d
  {
    ClassMapWellFormed(Default);
    DefaultEntries();
    if d in Discriminants {
      var i :| 0 <= i < |Discriminants| && Discriminants[i] == d;
      GetAt(ClassMap(Default), i);
      var c' := ClassMap(Default)[i].1.value;
      assert SelectClass(Default, d) == Ok(c');
      ClassNameInjective(c, c');
    } else {
      assert ClassName(c) in Discriminants;
    }
  }

  /** Each default entry holds the class named like its discriminant. */
  lemma DefaultEntries()
    ensures forall i :: 0 <= i < |ClassMap(Default)| ==>
      ClassMap(Default)[i].1.Some? && ClassName(ClassMap(Default)[i].1.value) == Discriminants[i]
  {
  }

  /** Distinct classes have distinct names, so the default map is one-to-one. */
  lemma ClassNameInjective(a: ExceptionClass, b: ExceptionClass)
    ensures ClassName(a) == ClassName(b) ==> a == b
  {
  }

  /**
   * A discriminant outside the map, the empty one included, raises the
   * assertion failure for every factory and never a gateway exception.
   */
  lemma UnknownDiscriminantFails(f: Factory, xml: Node)
    requires Discriminant(xml) !in Discriminants
    ensures GetException(f, xml) == InvalidArgument(UnknownTypeMessage(Discriminant(xml)))
  {
  }

  /**
   * With the default map, the raised exception's class is named by the
   * discriminant and carries `Error/Message` verbatim; only a BBS failure
   * carries a result, and it is the flattened `Error/Result`.
   */
  lemma {:induction false} DefaultRaisesNamedClass(xml: Node)
    requires Discriminant(xml) in Discriminants
    ensures GetException(Default, xml).GatewayException?
    ensures ClassName(GetException(Default, xml).cls) == Discriminant(xml)
    ensures GetException(Default, xml).message == Message(xml)
    ensures GetException(Default, xml).result ==
              if Discriminant(xml) == "BBSException" then Some(BBSResult(xml)) else None
  {
    var d := Discriminant(xml);
    var i :| 0 <= i < |Discriminants| && Discriminants[i] == d;
    ClassMapWellFormed(Default);
    GetAt(ClassMap(Default), i);
    assert ClassMap(Default)[i].0 == d;
    DefaultEntries();
    var c := ClassMap(Default)[i].1.value;
    assert ClassName(c) == d;
    DefaultSelectsByName(d, c);
    assert GetException(Default, xml) == NewException(c, xml);
    ClassNameInjective(c, BBSException);
  }

  /** What a constructor of a gateway exception class is handed. */
  datatype ConstructorArgument = NodeArgument(node: Node) | StringArgument(text: string)

  /**
   * `new $exceptionClass($argument)`: every exception class constructor
   * declares a `\SimpleXMLElement` parameter, so a string is refused with a
   * `TypeError` before the constructor body runs.
   */
  function Instantiate(c: ExceptionClass, argument: ConstructorArgument): (e: Failure)
    ensures argument.NodeArgument? ==> e == NewException(c, argument.node)
    ensures argument.StringArgument? ==> e == ConstructorTypeError(c)
  {
    match argument
    case NodeArgument(xml) => NewException(c, xml)
    case StringArgument(_) => ConstructorTypeError(c)
  }

  /** `getException` as written: the class is handed the message text instead of the document. */
  function GetExceptionAsWritten(f: Factory, xml: Node): (e: Failure)
    ensures SelectClass(f, Discriminant(xml)).Raised? ==> e == GetException(f, xml)
    ensures SelectClass(f, Discriminant(xml)).Ok? ==> e == ConstructorTypeError(SelectClass(f, Discriminant(xml)).value)
  {
    match SelectClass(f, Discriminant(xml))
    case Ok(c) => Instantiate(c, StringArgument(Message(xml)))
    case Raised(failure) => failure
  }

  /**
   * As written, no known discriminant ever produces its gateway exception:
   * the message and the BBS result are lost to a `TypeError`, where the
   * corrected `GetException` raises the mapped class with both.
   */
  lemma AsWrittenNeverRaisesGatewayException(f: Factory, xml: Node)
    requires SelectClass(f, Discriminant(xml)).Ok?
    ensures GetExceptionAsWritten(f, xml).ConstructorTypeError?
    ensures GetException(f, xml).GatewayException? && GetException(f, xml).message == Message(xml)
    ensures GetExceptionAsWritten(f, xml) != GetException(f, xml)
  {
  }

  /** A `BBSException` document under the default map: a `TypeError` as written, the BBS exception when corrected. */
  lemma BBSDocumentAsWritten(xml: Node)
    requires Discriminant(xml) == "BBSException"
    ensures GetExceptionAsWritten(Default, xml) == ConstructorTypeError(BBSException)
    ensures GetException(Default, xml) == GatewayException(BBSException, Message(xml), Some(BBSResult(xml)))
  {
    DefaultSelectsByName("BBSException", BBSException);
  }

  /**
   * Part of the result of an "already processed" authorisation failure:
   * tag names lose only their initial capital, and an empty element stays
   * with an empty value.
   */
  lemma BBSResultExample(xml: Node)
    requires Child(Child(xml, "Error"), "Result").children ==
      [Node("IssuerId", "50", [], []), Node("ExtraInfoOut", "2030010", [], []), Node("MaskedPan", "", [], [])]
    ensures BBSResult(xml) == [("issuerId", "50"), ("extraInfoOut", "2030010"), ("maskedPan", "")]
  {
    var cs := Child(Child(xml, "Error"), "Result").children;
    ExampleKeys(cs);
    CollectDistinct(cs, FieldKey);
  }

  lemma ExampleKeys(cs: seq<Node>)
    requires cs == [Node("IssuerId", "50", [], []), Node("ExtraInfoOut", "2030010", [], []), Node("MaskedPan", "", [], [])]
    ensures FieldKey(cs[0]) == "issuerId" && FieldKey(cs[1]) == "extraInfoOut" && FieldKey(cs[2]) == "maskedPan"
  {
    assert "IssuerId"[1..] == "ssuerId";
    assert "ExtraInfoOut"[1..] == "xtraInfoOut";
    assert "MaskedPan"[1..] == "askedPan";
  }
}

=== FILE: failures.dfy ===
/**
 * Everything the client can raise, as values. Three families never mix:
 * assertion failures of the client itself (`InvalidArgumentException`
 * from the assertion library), gateway exceptions built from an
 * `Exception` document, and the in-band error a response raises when its
 * document carries an `Error` element.
 */
module Failures {
  import opened Optional
  import opened Php

  /** The library's gateway exception classes, one per discriminant of the exception map. */
  datatype ExceptionClass =
    | AuthenticationException
    | BBSException
    | GenericError
    | MerchantTranslationException
    | NotSupportedException
    | QueryException
    | SecurityException
    | UniqueTransactionIdException
    | ValidationException

  datatype Failure =
      /** A failed check of the assertion library, with its message. */
    | InvalidArgument(message: string)
      /** A gateway exception; `result` is present exactly for `BBSException`. */
    | GatewayException(cls: ExceptionClass, message: string, result: Option<PhpArray<string>>)
      /** The response-level exception: message, integer code and the gateway's error source. */
    | ResponseException(message: string, code: int, source: string)
      /** PHP's `TypeError` from a constructor of `cls` handed an argument of the wrong type. */
    | ConstructorTypeError(cls: ExceptionClass)

  /** Either the value a call returns, or what it raises. */
  datatype Outcome<+T> = Ok(value: T) | Raised(failure: Failure) {

    predicate IsFailure() {
      Raised?
    }

    function PropagateFailure<U>(): Outcome<U>
      requires Raised?
    {
      Raised(failure)
    }

    function Extract(): T
      requires Ok?
    {
      value
    }
  }
}

=== FILE: optional.dfy ===
/** The conventional Some/None datatype, used for PHP's "maybe absent" values. */
module Optional {

  datatype Option<+T> = None | Some(value: T) {

    /** Returns the value held in Some, or the given default when None. */
    function GetOr(default: T): T {
      match this
      case Some(v) => v
      case None => default
    }
  }
}

=== FILE: php.dfy ===
/**
 * The pieces of the PHP runtime the client depends on: ordered arrays with
 * string keys (assignment, the left-biased `+` union, key filtering),
 * `lcfirst`, and the scalar casts `(int)` and `filter_var(FILTER_VALIDATE_BOOLEAN)`.
 */
module Php {
  import opened Optional

  /** A PHP array with string keys: its entries in insertion order. */
  type PhpArray<V> = seq<(string, V)>

  predicate HasKey<V>(a: PhpArray<V>, k: string) {
    exists i :: 0 <= i < |a| && a[i].0 == k
  }

  /** Every key occurs once, as in every array PHP can build. */
  predicate WellFormed<V>(a: PhpArray<V>) {
    forall i, j :: 0 <= i < j < |a| ==> a[i].0 != a[j].0
  }

  function KeySet<V>(a: PhpArray<V>): set<string> {
    set i | 0 <= i < |a| :: a[i].0
  }

  /** `$a[$k]`: the value stored under `k`, if any. */
  function Get<V>(a: PhpArray<V>, k: string): (r: Option<V>)
    ensures r.Some? <==> HasKey(a, k)
  {
    if a == [] then None
    else if a[0].0 == k then Some(a[0].1)
    else
      assert forall i :: 1 <= i < |a| ==> a[1..][i - 1] == a[i];
      Get(a[1..], k)
  }

  /**
   * `$a[$k] = $v`: an existing key keeps its position and takes the new
   * value; a new key is appended at the end.
   */
  function Set<V>(a: PhpArray<V>, k: string, v: V): (r: PhpArray<V>)
    ensures Get(r, k) == Some(v)
    ensures forall k' :: k' != k ==> Get(r, k') == Get(a, k')
    ensures HasKey(a, k) ==> |r| == |a|
    ensures !HasKey(a, k) ==> r == a + [(k, v)]
    ensures |a| <= |r| && forall i :: 0 <= i < |a| ==> r[i].0 == a[i].0
    ensures WellFormed(a) ==> WellFormed(r)
  {
    if a == [] then [(k, v)]
    else if a[0].0 == k then
      var r := [(k, v)] + a[1..];
      assert forall i :: 0 <= i < |a| ==> r[i].0 == a[i].0;
      assert forall k' :: k' != k ==> Get(r, k') == Get(a[1..], k') == Get(a, k');
      r
    else
      var rest := Set(a[1..], k, v);
      SetStep(a, k, v, rest);
      [a[0]] + rest
  }

  lemma SetStep<V>(a: PhpArray<V>, k: string, v: V, rest: PhpArray<V>)
    requires a != [] && a[0].0 != k
    requires Get(rest, k) == Some(v)
    requires forall k' :: k' != k ==> Get(rest, k') == Get(a[1..], k')
    requires HasKey(a[1..], k) ==> |rest| == |a[1..]|
    requires !HasKey(a[1..], k) ==> rest == a[1..] + [(k, v)]
    requires |a[1..]| <= |rest| && forall i :: 0 <= i < |a[1..]| ==> rest[i].0 == a[1..][i].0
    requires WellFormed(a[1..]) ==> WellFormed(rest)
    ensures Get([a[0]] + rest, k) == Some(v)
    ensures forall k' :: k' != k ==> Get([a[0]] + rest, k') == Get(a, k')
    ensures HasKey(a, k) ==> |[a[0]] + rest| == |a|
    ensures !HasKey(a, k) ==> [a[0]] + rest == a + [(k, v)]
    ensures |a| <= |[a[0]] + rest| && forall i :: 0 <= i < |a| ==> ([a[0]] + rest)[i].0 == a[i].0
    ensures WellFormed(a) ==> WellFormed([a[0]] + rest)
  {
    var r := [a[0]] + rest;
    assert r[0] == a[0] && r[1..] == rest;
    SetStepGet(a, k, v, rest);
    HasKeyTail(a, k);
    if !HasKey(a, k) {
      assert a == [a[0]] + a[1..];
    }
    SetStepPositions(a, rest);
    if WellFormed(a) {
      WellFormedTail(a);
      SetStepWellFormed(a, k, v, rest);
    }
  }

  lemma SetStepGet<V>(a: PhpArray<V>, k: string, v: V, rest: PhpArray<V>)
    requires a != [] && a[0].0 != k
    requires Get(rest, k) == Some(v)
    requires forall k' :: k' != k ==> Get(rest, k') == Get(a[1..], k')
    ensures Get([a[0]] + rest, k) == Some(v)
    ensures forall k' :: k' != k ==> Get([a[0]] + rest, k') == Get(a, k')
  {
    var r := [a[0]] + rest;
    assert r[0] == a[0] && r[1..] == rest;
  }

  lemma HasKeyTail<V>(a: PhpArray<V>, k: string)
    requires a != [] && a[0].0 != k
    ensures HasKey(a, k) <==> HasKey(a[1..], k)
  {
    if HasKey(a, k) {
      var i :| 0 <= i < |a| && a[i].0 == k;
      assert a[1..][i - 1] == a[i];
    }
    if HasKey(a[1..], k) {
      var i :| 0 <= i < |a[1..]| && a[1..][i].0 == k;
      assert a[i + 1] == a[1..][i];
    }
  }

  lemma WellFormedTail<V>(a: PhpArray<V>)
    requires a != [] && WellFormed(a)
    ensures WellFormed(a[1..])
  {
    forall i, j | 0 <= i < j < |a[1..]| ensures a[1..][i].0 != a[1..][j].0 {
      assert a[1..][i] == a[i + 1] && a[1..][j] == a[j + 1];
    }
  }

  lemma SetStepPositions<V>(a: PhpArray<V>, rest: PhpArray<V>)
    requires a != []
    requires |a[1..]| <= |rest| && forall i :: 0 <= i < |a[1..]| ==> rest[i].0 == a[1..][i].0
    ensures forall i :: 0 <= i < |a| ==> ([a[0]] + rest)[i].0 == a[i].0
  {
    var r := [a[0]] + rest;
    forall i | 0 <= i < |a| ensures r[i].0 == a[i].0 {
      if i > 0 {
        assert r[i] == rest[i - 1];
        assert a[i] == a[1..][i - 1];
      }
    }
  }

  lemma SetStepWellFormed<V>(a: PhpArray<V>, k: string, v: V, rest: PhpArray<V>)
    requires a != [] && a[0].0 != k && WellFormed(a) && WellFormed(rest)
    requires !HasKey(a[1..], k) ==> rest == a[1..] + [(k, v)]
    requires HasKey(a[1..], k) ==> |rest| == |a[1..]|
    requires forall i :: 0 <= i < |a[1..]| ==> rest[i].0 == a[1..][i].0
    ensures WellFormed([a[0]] + rest)
  {
    var r := [a[0]] + rest;
    forall i, j | 0 <= i < j < |r| ensures r[i].0 != r[j].0 {
      if i == 0 {
        assert r[j] == rest[j - 1];
        if j - 1 < |a[1..]| {
          assert a[1..][j - 1] == a[j];
        } else {
          assert rest[j - 1] == (k, v);
        }
      } else {
        assert r[i] == rest[i - 1] && r[j] == rest[j - 1];
      }
    }
  }

  /** In an array without repeated keys, each entry is what its key looks up. */
  lemma {:induction false} GetAt<V>(a: PhpArray<V>, i: nat)
    requires WellFormed(a) && i < |a|
    ensures Get(a, a[i].0) == Some(a[i].1)
  {
    if i > 0 {
      WellFormedTail(a);
      assert a[1..][i - 1] == a[i];
      GetAt(a[1..], i - 1);
    }
  }

  /** Replacing the value of one entry changes what that key looks up and nothing else. */
  lemma {:induction false} GetUpdate<V>(a: PhpArray<V>, i: nat, v: V, k: string)
    requires WellFormed(a) && i < |a|
    ensures Get(a[i := (a[i].0, v)], k) == if k == a[i].0 then Some(v) else Get(a, k)
  {
    var b := a[i := (a[i].0, v)];
    if i == 0 {
      assert b[1..] == a[1..];
    } else {
      WellFormedTail(a);
      assert b[0] == a[0];
      assert b[1..] == a[1..][i - 1 := (a[i].0, v)];
      GetUpdate(a[1..], i - 1, v, k);
      assert a[1..][i - 1] == a[i];
    }
  }

  /** The entries of `a` whose key is in `ks`, in their original order. */
  function Restrict<V>(a: PhpArray<V>, ks: set<string>): (r: PhpArray<V>)
    ensures forall k :: Get(r, k) == if k in ks then Get(a, k) else None
    ensures WellFormed(a) ==> WellFormed(r)
    ensures forall i :: 0 <= i < |r| ==> r[i].0 in ks && r[i] in a
  {
    if a == [] then []
    else if a[0].0 in ks then [a[0]] + Restrict(a[1..], ks)
    else Restrict(a[1..], ks)
  }

  /** The entries of `a` whose key is not in `ks`, in their original order. */
  function Remove<V>(a: PhpArray<V>, ks: set<string>): (r: PhpArray<V>)
    ensures forall k :: Get(r, k) == if k in ks then None else Get(a, k)
    ensures WellFormed(a) ==> WellFormed(r)
    ensures forall i :: 0 <= i < |r| ==> r[i].0 !in ks && r[i] in a
  {
    if a == [] then []
    else if a[0].0 in ks then Remove(a[1..], ks)
    else [a[0]] + Remove(a[1..], ks)
  }

  /** Filtering by key distributes over concatenation, so the surviving entries keep their order. */
  lemma {:induction false} RestrictAppend<V>(a: PhpArray<V>, b: PhpArray<V>, ks: set<string>)
    ensures Restrict(a + b, ks) == Restrict(a, ks) + Restrict(b, ks)
  {
    if a == [] {
      assert a + b == b;
    } else {
      assert (a + b)[0] == a[0];
      assert (a + b)[1..] == a[1..] + b;
      RestrictAppend(a[1..], b, ks);
    }
  }

  /** Dropping keys distributes over concatenation, so the remaining entries keep their order. */
  lemma {:induction false} RemoveAppend<V>(a: PhpArray<V>, b: PhpArray<V>, ks: set<string>)
    ensures Remove(a + b, ks) == Remove(a, ks) + Remove(b, ks)
  {
    if a == [] {
      assert a + b == b;
    } else {
      assert (a + b)[0] == a[0];
      assert (a + b)[1..] == a[1..] + b;
      RemoveAppend(a[1..], b, ks);
    }
  }

  /** Looking a key up in a concatenation finds it in the left part first. */
  lemma {:induction false} GetAppend<V>(a: PhpArray<V>, b: PhpArray<V>, k: string)
    ensures Get(a + b, k) == if HasKey(a, k) then Get(a, k) else Get(b, k)
  {
    if a != [] {
      assert (a + b)[0] == a[0];
      assert (a + b)[1..] == a[1..] + b;
      GetAppend(a[1..], b, k);
      assert a[0].0 != k ==> (HasKey(a, k) <==> HasKey(a[1..], k));
    } else {
      assert a + b == b;
    }
  }

  /**
   * PHP's array union `$a + $b`: all of `a`, followed by the entries of `b`
   * whose key `a` does not already hold. The left operand wins.
   */
  function Union<V>(a: PhpArray<V>, b: PhpArray<V>): (r: PhpArray<V>)
    ensures forall k :: Get(r, k) == if HasKey(a, k) then Get(a, k) else Get(b, k)
    ensures |a| <= |r| && r[..|a|] == a
    ensures r[|a|..] == Remove(b, KeySet(a))
    ensures WellFormed(a) && WellFormed(b) ==> WellFormed(r)
  {
    var rest := Remove(b, KeySet(a));
    UnionFacts(a, b, rest);
    a + rest
  }

  lemma UnionFacts<V>(a: PhpArray<V>, b: PhpArray<V>, rest: PhpArray<V>)
    requires rest == Remove(b, KeySet(a))
    ensures forall k :: Get(a + rest, k) == if HasKey(a, k) then Get(a, k) else Get(b, k)
    ensures (a + rest)[..|a|] == a
    ensures WellFormed(a) && WellFormed(b) ==> WellFormed(a + rest)
  {
    forall k ensures Get(a + rest, k) == if HasKey(a, k) then Get(a, k) else Get(b, k) {
      GetAppend(a, rest, k);
      if HasKey(a, k) {
        var i :| 0 <= i < |a| && a[i].0 == k;
        assert k in KeySet(a);
      }
    }
    assert (a + rest)[..|a|] == a;
    if WellFormed(a) && WellFormed(b) {
      forall i, j | 0 <= i < j < |a + rest| ensures (a + rest)[i].0 != (a + rest)[j].0 {
        if i < |a| && j >= |a| {
          assert (a + rest)[j] == rest[j - |a|];
          assert a[i].0 in KeySet(a);
        } else if i >= |a| {
          assert (a + rest)[j] == rest[j - |a|];
          assert (a + rest)[i] == rest[i - |a|];
        }
      }
    }
  }

  /** PHP's `lcfirst`: lower-cases the first character when it is an ASCII capital. */
  function LcFirst(s: string): string {
    if 0 < |s| && 'A' <= s[0] <= 'Z' then [(s[0] as int + 32) as char] + s[1..] else s
  }

  /** `lcfirst` keeps the length and every character after the first; only an ASCII capital changes. */
  lemma LcFirstSpec(s: string)
    ensures |LcFirst(s)| == |s|
    ensures 0 < |s| ==> LcFirst(s)[1..] == s[1..]
    ensures 0 < |s| && 'A' <= s[0] <= 'Z' ==> LcFirst(s)[0] as int == s[0] as int + 32
    ensures 0 < |s| && !('A' <= s[0] <= 'Z') ==> LcFirst(s)[0] == s[0]
  {
  }

  /**
   * PHP's scalar conversions, whose library semantics are outside this model:
   * `toInt` is the `(int)` cast of a string and `toBool` is
   * `filter_var($s, FILTER_VALIDATE_BOOLEAN)`.
   */
  datatype Casts = Casts(toInt: string -> int, toBool: string -> bool)
}

=== FILE: query.dfy ===
/**
 * The Query response: pure reads over the `PaymentInfo` document and the
 * derivation of a transaction status from an optional in-band error record
 * and the document's summary.
 */
module Query {
  import opened Optional
  import opened Php
  import opened Xml
  import Responses

  /** The status constants of the query interface. */
  datatype Status = Unregistered | Pending | Authorized | Captured | Cancelled | Credited | Failed

  function StatusName(s: Status): string {
    match s
    case Unregistered => "unregistered"
    case Pending => "pending"
    case Authorized => "authorized"
    case Captured => "captured"
    case Cancelled => "cancelled"
    case Credited => "credited"
    case Failed => "failed"
  }

  /** The seven status constants are distinct strings, so a status name identifies its status. */
  lemma StatusNamesDistinct(s: Status, t: Status)
    ensures StatusName(s) == StatusName(t) <==> s == t
  {
  }

  /** The fields of an in-band error that the status derivation reads; absent fields are "". */
  datatype ErrorRecord = ErrorRecord(operation: string, responseCode: string, responseSource: string, responseText: string)

  /** `getSummary()`: amounts in minor units and the two flags. */
  datatype Summary = Summary(amountCaptured: int, amountCredited: int, cancelled: bool, authorized: bool, authorizationId: string)

  /** PHP's `!empty($s)` for a string: neither "" nor "0". */
  predicate NotEmpty(s: string) {
    s != "" && s != "0"
  }

  /** The gateway's report that the customer left the hosted payment page. */
  predicate CancelledByCustomer(e: ErrorRecord) {
    && NotEmpty(e.operation) && e.operation == "Terminal"
    && NotEmpty(e.responseCode) && e.responseCode == "17"
    && NotEmpty(e.responseSource) && (e.responseSource == "Terminal" || e.responseSource == "05")
    && NotEmpty(e.responseText) && e.responseText == "Cancelled by customer."
  }

  /** The `!empty` guards add nothing: the four comparisons alone decide a customer cancellation. */
  lemma CancelledByCustomerExactly(e: ErrorRecord)
    ensures CancelledByCustomer(e) <==>
      e.operation == "Terminal" && e.responseCode == "17"
      && (e.responseSource == "Terminal" || e.responseSource == "05")
      && e.responseText == "Cancelled by customer."
  {
  }

  /** `getTransactionStatus()`, checked in the source's priority order. */
  function TransactionStatus(error: Option<ErrorRecord>, s: Summary): (r: Status)
    ensures r != Unregistered
    ensures error.Some? ==> r == Cancelled || r == Failed
  {
    if error.Some? then
      if CancelledByCustomer(error.value) then Cancelled else Failed
    else if s.cancelled then Cancelled
    else if s.amountCredited != 0 then Credited
    else if s.authorized && s.amountCaptured == 0 then Authorized
    else if !s.authorized && s.amountCaptured == 0 then Pending
    else Captured
  }

  /**
   * An order-free description of each status: the conditions under which a
   * transaction is in it, each stated in full.
   */
  predicate Describes(error: Option<ErrorRecord>, s: Summary, st: Status) {
    match st
    case Unregistered => false
    case Failed => error.Some? && !CancelledByCustomer(error.value)
    case Cancelled => (error.Some? && CancelledByCustomer(error.value)) || (error.None? && s.cancelled)
    case Credited => error.None? && !s.cancelled && s.amountCredited != 0
    case Authorized => error.None? && !s.cancelled && s.amountCredited == 0 && s.authorized && s.amountCaptured == 0
    case Pending => error.None? && !s.cancelled && s.amountCredited == 0 && !s.authorized && s.amountCaptured == 0
    case Captured => error.None? && !s.cancelled && s.amountCredited == 0 && s.amountCaptured != 0
  }

  /**
   * The derivation is total and unambiguous: exactly one status is
   * described by any error and summary, and it is the derived one.
   */
  lemma StatusIsTheDescribedOne(error: Option<ErrorRecord>, s: Summary, st: Status)
    ensures TransactionStatus(error, s) == st <==> Describes(error, s, st)
  {
  }

  /** Given an error, the status is cancelled exactly for a customer cancellation, and failed otherwise. */
  lemma ErrorStatus(e: ErrorRecord, s: Summary)
    ensures TransactionStatus(Some(e), s) == Cancelled <==>
      e.operation == "Terminal" && e.responseCode == "17"
      && (e.responseSource == "Terminal" || e.responseSource == "05")
      && e.responseText == "Cancelled by customer."
    ensures TransactionStatus(Some(e), s) != Cancelled ==> TransactionStatus(Some(e), s) == Failed
  {
  }

  /** Without an error, the annulled flag gives cancelled whatever the amounts and the authorized flag. */
  lemma AnnulledIsCancelled(s: Summary)
    requires s.cancelled
    ensures TransactionStatus(None, s) == Cancelled
  {
  }

  /** Without an error and not annulled, any credited amount gives credited, before the other branches. */
  lemma CreditedBeforeCaptured(s: Summary)
    requires !s.cancelled && s.amountCredited != 0
    ensures TransactionStatus(None, s) == Credited
  {
  }

  /** Without error, annulment or credit, nothing captured gives authorized or pending by the authorized flag. */
  lemma UncapturedStatus(s: Summary)
    requires !s.cancelled && s.amountCredited == 0 && s.amountCaptured == 0
    ensures TransactionStatus(None, s) == (if s.authorized then Authorized else Pending)
  {
  }

  /** Without error, annulment or credit, a captured amount gives captured whatever the authorized flag. */
  lemma CapturedWhateverAuthorized(s: Summary)
    requires !s.cancelled && s.amountCredited == 0 && s.amountCaptured != 0
    ensures TransactionStatus(None, s) == Captured
  {
  }

  /** A cancelled, credited or failed transaction is never reported captured or authorized. */
  lemma CancellationOutranksSettlement(error: Option<ErrorRecord>, s: Summary)
    requires error.Some? || s.cancelled
    ensures TransactionStatus(error, s) !in {Captured, Authorized, Credited, Pending}
  {
  }

  // ---- Reads over the document ----

  /** `getSummary()`, through PHP's casts. */
  function ReadSummary(xml: Node, casts: Casts): (r: Summary)
    ensures (forall i :: 0 <= i < |xml.children| ==> xml.children[i].name != "Summary") ==>
      r == Summary(casts.toInt(""), casts.toInt(""), casts.toBool(""), casts.toBool(""), "")
  {
    MissingReadsEmpty(xml, "Summary");
    var summary := Child(xml, "Summary");
    Summary(
      casts.toInt(Text(summary, "AmountCaptured")),
      casts.toInt(Text(summary, "AmountCredited")),
      casts.toBool(Text(summary, "Annulled")),
      casts.toBool(Text(summary, "Authorized")),
      Text(summary, "AuthorizationId"))
  }

  /** The status a Query reports for its document and the given in-band error. */
  function QueryStatus(xml: Node, error: Option<ErrorRecord>, casts: Casts): (r: Status)
    ensures r != Unregistered
  {
    TransactionStatus(error, ReadSummary(xml, casts))
  }

  /** `getMerchantId()`: the text of the first `MerchantId` child, or "" without one. */
  function MerchantId(xml: Node): (r: string)
    ensures (forall i :: 0 <= i < |xml.children| ==> xml.children[i].name != "MerchantId") ==> r == ""
    ensures forall i :: FirstAt(xml, "MerchantId", i) ==> r == xml.children[i].text
  {
    TextReadsFirst(xml, "MerchantId");
    Text(xml, "MerchantId")
  }

  /** `getTransactionId()` of the query response. */
  function TransactionId(xml: Node): (r: string)
    ensures (forall i :: 0 <= i < |xml.children| ==> xml.children[i].name != "TransactionId") ==> r == ""
    ensures forall i :: FirstAt(xml, "TransactionId", i) ==> r == xml.children[i].text
  {
    Responses.TransactionId(xml)
  }

  /** `getCustomerInfo()`: thirteen text fields of `CustomerInformation`. */
  datatype CustomerInfo = CustomerInfo(
    email: string, phoneNumber: string, customerNumber: string, firstName: string,
    lastName: string, address1: string, address2: string, postcode: string, town: string,
    country: string, socialSecurityNumber: string, companyName: string,
    companyRegistrationNumber: string)

  function ReadCustomerInfo(xml: Node): (r: CustomerInfo)
    ensures (forall i :: 0 <= i < |xml.children| ==> xml.children[i].name != "CustomerInformation") ==>
      r == CustomerInfo("", "", "", "", "", "", "", "", "", "", "", "", "")
  {
    MissingReadsEmpty(xml, "CustomerInformation");
    var ci := Child(xml, "CustomerInformation");
    CustomerInfo(
      Text(ci, "Email"), Text(ci, "PhoneNumber"), Text(ci, "CustomerNumber"), Text(ci, "FirstName"),
      Text(ci, "LastName"), Text(ci, "Address1"), Text(ci, "Address2"), Text(ci, "Postcode"),
      Text(ci, "Town"), Text(ci, "Country"), Text(ci, "SocialSecurityNumber"), Text(ci, "CompanyName"),
      Text(ci, "CompanyRegistrationNumber"))
  }

  /** `getOrderInformation()`: four amounts in minor units and four text fields. */
  datatype OrderInformation = OrderInformation(
    amount: int, currency: string, orderNumber: string, orderDescription: string,
    fee: int, roundingAmount: int, total: int, timestamp: string)

  function ReadOrderInformation(xml: Node, casts: Casts): (r: OrderInformation)
    ensures (forall i :: 0 <= i < |xml.children| ==> xml.children[i].name != "OrderInformation") ==>
      r == OrderInformation(casts.toInt(""), "", "", "", casts.toInt(""), casts.toInt(""), casts.toInt(""), "")
  {
    MissingReadsEmpty(xml, "OrderInformation");
    var oi := Child(xml, "OrderInformation");
    OrderInformation(
      casts.toInt(Text(oi, "Amount")), Text(oi, "Currency"), Text(oi, "OrderNumber"),
      Text(oi, "OrderDescription"), casts.toInt(Text(oi, "Fee")), casts.toInt(Text(oi, "RoundingAmount")),
      casts.toInt(Text(oi, "Total")), Text(oi, "Timestamp"))
  }

  /** `getOrderTotal()`: always the `total` of the order information. */
  function OrderTotal(xml: Node, casts: Casts): (r: int)
    ensures r == ReadOrderInformation(xml, casts).total
  {
    casts.toInt(Text(Child(xml, "OrderInformation"), "Total"))
  }

  /** `getHistory()`: one flattened array per child of `History`, in document order. */
  function History(xml: Node): (r: seq<PhpArray<string>>)
    ensures |r| == |Child(xml, "History").children|
    ensures forall i :: 0 <= i < |r| ==> WellFormed(r[i])
    ensures forall i, k :: 0 <= i < |r| ==>
      (HasKey(r[i], k) <==> exists j :: 0 <= j < |Child(xml, "History").children[i].children|
                                        && FieldKey(Child(xml, "History").children[i].children[j]) == k)
  {
    var entries := Child(xml, "History").children;
    seq(|entries|, i requires 0 <= i < |entries| => Flatten(entries[i].children))
  }

  // ---- Documents carrying given values, and reading them back ----

  const CustomerFields: seq<string> := [
    "Email", "PhoneNumber", "CustomerNumber", "FirstName", "LastName", "Address1", "Address2",
    "Postcode", "Town", "Country", "SocialSecurityNumber", "CompanyName", "CompanyRegistrationNumber"]

  function CustomerValues(c: CustomerInfo): seq<string> {
    [ c.email, c.phoneNumber, c.customerNumber, c.firstName, c.lastName, c.address1, c.address2,
      c.postcode, c.town, c.country, c.socialSecurityNumber, c.companyName, c.companyRegistrationNumber ]
  }

  /** A `CustomerInformation` element holding the thirteen fields of `c`. */
  function CustomerInformationElement(c: CustomerInfo): Node {
    Node("CustomerInformation", "", [], Leaves(CustomerFields, CustomerValues(c)))
  }

  /** Each of the thirteen fields is read from its own element: the customer information reads back intact. */
  lemma CustomerInfoRoundTrip(xml: Node, c: CustomerInfo)
    requires Child(xml, "CustomerInformation") == CustomerInformationElement(c)
    ensures ReadCustomerInfo(xml) == c
  {
    CustomerFieldRead(c, 0);
    CustomerFieldRead(c, 1);
    CustomerFieldRead(c, 2);
    CustomerFieldRead(c, 3);
    CustomerFieldRead(c, 4);
    CustomerFieldRead(c, 5);
    CustomerFieldRead(c, 6);
    CustomerFieldRead(c, 7);
    CustomerFieldRead(c, 8);
    CustomerFieldRead(c, 9);
    CustomerFieldRead(c, 10);
    CustomerFieldRead(c, 11);
    CustomerFieldRead(c, 12);
  }

  lemma CustomerFieldRead(c: CustomerInfo, i: nat)
    requires i < |CustomerFields|
    ensures Text(CustomerInformationElement(c), CustomerFields[i]) == CustomerValues(c)[i]
  {
    var e := CustomerInformationElement(c);
    assert forall j :: 0 <= j < i ==> CustomerFields[j] != CustomerFields[i];
    TextAt(e, i);
  }

  const OrderFields: seq<string> := [
    "Amount", "Currency", "OrderNumber", "OrderDescription", "Fee", "RoundingAmount", "Total", "Timestamp"]

  /** The texts of an order information element, amounts written by `render`. */
  function OrderTexts(o: OrderInformation, render: int -> string): seq<string> {
    [ render(o.amount), o.currency, o.orderNumber, o.orderDescription, render(o.fee),
      render(o.roundingAmount), render(o.total), o.timestamp ]
  }

  function OrderInformationElement(o: OrderInformation, render: int -> string): Node {
    Node("OrderInformation", "", [], Leaves(OrderFields, OrderTexts(o, render)))
  }

  lemma OrderFieldRead(o: OrderInformation, render: int -> string, i: nat)
    requires i < |OrderFields|
    ensures Text(OrderInformationElement(o, render), OrderFields[i]) == OrderTexts(o, render)[i]
  {
    assert forall j :: 0 <= j < i ==> OrderFields[j] != OrderFields[i];
    TextAt(OrderInformationElement(o, render), i);
  }

  /**
   * When amounts are written so that the integer cast reads them back, the
   * order information reads back intact, and the order total is its total.
   */
  lemma OrderInformationRoundTrip(xml: Node, o: OrderInformation, render: int -> string, casts: Casts)
    requires forall n :: casts.toInt(render(n)) == n
    requires Child(xml, "OrderInformation") == OrderInformationElement(o, render)
    ensures ReadOrderInformation(xml, casts) == o
    ensures OrderTotal(xml, casts) == o.total
  {
    OrderFieldRead(o, render, 0);
    OrderFieldRead(o, render, 1);
    OrderFieldRead(o, render, 2);
    OrderFieldRead(o, render, 3);
    OrderFieldRead(o, render, 4);
    OrderFieldRead(o, render, 5);
    OrderFieldRead(o, render, 6);
    OrderFieldRead(o, render, 7);
  }

  const SummaryFields: seq<string> := ["AmountCaptured", "AmountCredited", "Annulled", "Authorized", "AuthorizationId"]

  /** The texts of a summary element, amounts written by `render` and flags by `flag`. */
  function SummaryTexts(s: Summary, render: int -> string, flag: bool -> string): seq<string> {
    [ render(s.amountCaptured), render(s.amountCredited), flag(s.cancelled), flag(s.authorized), s.authorizationId ]
  }

  function SummaryElement(s: Summary, render: int -> string, flag: bool -> string): Node {
    Node("Summary", "", [], Leaves(SummaryFields, SummaryTexts(s, render, flag)))
  }

  lemma SummaryFieldRead(s: Summary, render: int -> string, flag: bool -> string, i: nat)
    requires i < |SummaryFields|
    ensures Text(SummaryElement(s, render, flag), SummaryFields[i]) == SummaryTexts(s, render, flag)[i]
  {
    assert forall j :: 0 <= j < i ==> SummaryFields[j] != SummaryFields[i];
    TextAt(SummaryElement(s, render, flag), i);
  }

  /**
   * When amounts and flags are written so that the casts read them back,
   * the summary reads back intact, so the document's status is the one
   * derived from that summary.
   */
  lemma SummaryRoundTrip(xml: Node, s: Summary, render: int -> string, flag: bool -> string, casts: Casts)
    requires forall n :: casts.toInt(render(n)) == n
    requires forall b :: casts.toBool(flag(b)) == b
    requires Child(xml, "Summary") == SummaryElement(s, render, flag)
    ensures ReadSummary(xml, casts) == s
    ensures forall error :: QueryStatus(xml, error, casts) == TransactionStatus(error, s)
  {
    SummaryFieldRead(s, render, flag, 0);
    SummaryFieldRead(s, render, flag, 1);
    SummaryFieldRead(s, render, flag, 2);
    SummaryFieldRead(s, render, flag, 3);
    SummaryFieldRead(s, render, flag, 4);
  }

  /**
   * A history entry whose tags give distinct keys becomes one array entry
   * per tag, in document order: `lcfirst(tag)` mapped to the tag's text.
   */
  lemma HistoryEntryInOrder(xml: Node, i: nat)
    requires i < |Child(xml, "History").children|
    requires var tags := Child(xml, "History").children[i].children;
      forall j, k :: 0 <= j < k < |tags| ==> FieldKey(tags[j]) != FieldKey(tags[k])
    ensures var tags := Child(xml, "History").children[i].children;
      |History(xml)[i]| == |tags|
      && forall j :: 0 <= j < |tags| ==> History(xml)[i][j] == (LcFirst(tags[j].name), tags[j].text)
  {
    CollectDistinct(Child(xml, "History").children[i].children, FieldKey);
  }

  /** Within a history entry, a tag repeated under the same key leaves the later text. */
  lemma HistoryLaterTagWins(xml: Node, i: nat, j: nat)
    requires i < |Child(xml, "History").children|
    requires var tags := Child(xml, "History").children[i].children;
      j < |tags| && forall k :: j < k < |tags| ==> FieldKey(tags[k]) != FieldKey(tags[j])
    ensures var tags := Child(xml, "History").children[i].children;
      Get(History(xml)[i], LcFirst(tags[j].name)) == Some(tags[j].text)
  {
  }
}

=== FILE: query_string.dfy ===
/**
 * The shape of `http_build_query`: each key and value is percent-encoded
 * (the encoding itself is a parameter), joined as `key=value`, and the
 * pairs are joined with `&`. Splitting on `&` and `=` takes such a string
 * apart again, as long as the encoding never produces either character.
 */
module QueryString {
  import opened Php

  function Pair(e: (string, string), enc: string -> string): string {
    enc(e.0) + "=" + enc(e.1)
  }

  /** `http_build_query($params)`. */
  function Build(params: PhpArray<string>, enc: string -> string): string {
    if |params| == 0 then ""
    else if |params| == 1 then Pair(params[0], enc)
    else Pair(params[0], enc) + "&" + Build(params[1..], enc)
  }

  lemma BuildTwo(e1: (string, string), e2: (string, string), enc: string -> string)
    ensures Build([e1, e2], enc) == Pair(e1, enc) + "&" + Pair(e2, enc)
  {
    assert [e1, e2][1..] == [e2];
  }

  /** `s` cut at every occurrence of `c`; always at least one piece. */
  function SplitOn(s: string, c: char): (parts: seq<string>)
    ensures |parts| >= 1
  {
    if |s| == 0 then [""]
    else if s[0] == c then [""] + SplitOn(s[1..], c)
    else
      var rest := SplitOn(s[1..], c);
      [[s[0]] + rest[0]] + rest[1..]
  }

  /** A piece without the separator stays whole; a separator after it starts the next piece. */
  lemma {:induction false} SplitOnPrefix(a: string, b: string, c: char)
    requires c !in a
    ensures SplitOn(a, c) == [a]
    ensures SplitOn(a + [c] + b, c) == [a] + SplitOn(b, c)
  {
    if a != [] {
      SplitOnPrefix(a[1..], b, c);
      assert (a + [c] + b)[1..] == a[1..] + [c] + b;
      assert [a[0]] + a[1..] == a;
    } else {
      assert a + [c] + b == [c] + b;
      assert ([c] + b)[1..] == b;
    }
  }

  /** A `key=value` piece read back as its two halves. */
  function ParsePair(piece: string): (string, string) {
    var kv := SplitOn(piece, '=');
    (kv[0], if |kv| > 1 then kv[1] else "")
  }

  /** The pairs of a query string, still encoded. */
  function Parse(q: string): seq<(string, string)> {
    if q == "" then []
    else
      var pieces := SplitOn(q, '&');
      seq(|pieces|, i requires 0 <= i < |pieces| => ParsePair(pieces[i]))
  }

  /** The pairs `Build` writes: every key and value through the encoding. */
  function Encoded(params: PhpArray<string>, enc: string -> string): (r: seq<(string, string)>)
    ensures |r| == |params|
  {
    seq(|params|, i requires 0 <= i < |params| => (enc(params[i].0), enc(params[i].1)))
  }

  /** An encoding that never writes the two separators, as percent-encoding does not. */
  ghost predicate SeparatorFree(enc: string -> string) {
    forall x :: '&' !in enc(x) && '=' !in enc(x)
  }

  lemma {:induction false} BuildPieces(params: PhpArray<string>, enc: string -> string)
    requires SeparatorFree(enc) && params != []
    ensures SplitOn(Build(params, enc), '&') == seq(|params|, i requires 0 <= i < |params| => Pair(params[i], enc))
  {
    var p0 := Pair(params[0], enc);
    assert '&' !in enc(params[0].0) && '&' !in enc(params[0].1);
    assert '&' !in p0;
    if |params| == 1 {
      SplitOnPrefix(p0, "", '&');
    } else {
      BuildPieces(params[1..], enc);
      SplitOnPrefix(p0, Build(params[1..], enc), '&');
      assert Build(params, enc) == p0 + ['&'] + Build(params[1..], enc);
    }
  }

  lemma PairParses(e: (string, string), enc: string -> string)
    requires SeparatorFree(enc)
    ensures ParsePair(Pair(e, enc)) == (enc(e.0), enc(e.1))
  {
    assert '=' !in enc(e.0) && '=' !in enc(e.1);
    SplitOnPrefix(enc(e.0), enc(e.1), '=');
    SplitOnPrefix(enc(e.1), "", '=');
    assert Pair(e, enc) == enc(e.0) + ['='] + enc(e.1);
  }

  /** Splitting a built query string gives back every encoded pair, in order. */
  lemma {:induction false} ParseBuild(params: PhpArray<string>, enc: string -> string)
    requires SeparatorFree(enc)
    ensures Parse(Build(params, enc)) == Encoded(params, enc)
  {
    if params != [] {
      BuildPieces(params, enc);
      var e0 := enc(params[0].0);
      assert Build(params, enc) != "" by {
        assert Pair(params[0], enc) == e0 + "=" + enc(params[0].1);
        assert |Pair(params[0], enc)| > 0;
      }
      forall i | 0 <= i < |params| ensures Parse(Build(params, enc))[i] == Encoded(params, enc)[i] {
        PairParses(params[i], enc);
      }
    }
  }
}

=== FILE: response_factory.dfy ===
/**
 * The response factory: the root tag selects one of three constructor
 * arguments (`PaymentInfo` for Query, `ProcessResponse` for Process,
 * `RegisterResponse` for Register), each of which the caller may replace,
 * and the whole document is passed to the selected constructor.
 */
module ResponseFactory {
  import opened Optional
  import opened Php
  import opened Xml
  import opened Failures
  import opened Responses

  /** The three constructor arguments; `None` stands for an empty one (null or ''). */
  datatype Factory = Factory(
    queryClass: Option<ResponseClass>,
    processClass: Option<ResponseClass>,
    registerClass: Option<ResponseClass>)

  const Default: Factory := Factory(Some(QueryClass), Some(ProcessClass), Some(RegisterClass))

  /** The root tags the map knows. */
  const Tags: seq<string> := ["PaymentInfo", "ProcessResponse", "RegisterResponse"]

  function ClassMap(f: Factory): (m: PhpArray<Option<ResponseClass>>)
    ensures |m| == |Tags|
    ensures forall i :: 0 <= i < |m| ==> m[i].0 == Tags[i]
  {
    [("PaymentInfo", f.queryClass), ("ProcessResponse", f.processClass), ("RegisterResponse", f.registerClass)]
  }

  function UnknownRootMessage(name: string): string {
    "Unable to instantiate response class for " + name
  }

  /** The class the map holds for a root tag, or the failed assertion. */
  function SelectClass(f: Factory, name: string): (r: Outcome<ResponseClass>)
    ensures r.Raised? ==> r.failure == InvalidArgument(UnknownRootMessage(name))
    ensures name !in Tags ==> r.Raised?
    ensures r.Ok? ==> Get(ClassMap(f), name) == Some(Some(r.value))
    ensures r.Ok? <==> Get(ClassMap(f), name).Some? && Get(ClassMap(f), name).value.Some?
  {
    var entry: Option<Option<ResponseClass>> := Get(ClassMap(f), name);
    if entry.Some? && entry.value.Some? then Ok(entry.value.value)
    else Raised(InvalidArgument(UnknownRootMessage(name)))
  }

  /** `getResponse($xml)`: select by the root tag, then construct from the whole document. */
  function GetResponse(f: Factory, xml: Node, casts: Casts): (r: Outcome<Response>)
    ensures SelectClass(f, xml.name).Raised? ==> r == Raised(InvalidArgument(UnknownRootMessage(xml.name)))
    ensures SelectClass(f, xml.name).Ok? ==> r == Construct(SelectClass(f, xml.name).value, xml, casts)
  {
    var c :- SelectClass(f, xml.name);
    Construct(c, xml, casts)
  }

  lemma ClassMapWellFormed(f: Factory)
    ensures WellFormed(ClassMap(f))
  {
  }

  /** With the default map, each known root tag selects its own class. */
  lemma DefaultSelection()
    ensures SelectClass(Default, "PaymentInfo") == Ok(QueryClass)
    ensures SelectClass(Default, "ProcessResponse") == Ok(ProcessClass)
    ensures SelectClass(Default, "RegisterResponse") == Ok(RegisterClass)
  {
    ClassMapWellFormed(Default);
    GetAt(ClassMap(Default), 0);
    GetAt(ClassMap(Default), 1);
    GetAt(ClassMap(Default), 2);
  }

  /**
   * With the default map, `PaymentInfo` yields a Query, `RegisterResponse` a
   * Register and `ProcessResponse` the Process hand-off, each holding the
   * whole document; a Query or Register document with an `Error` element
   * raises instead.
   */
  lemma {:induction false} DefaultDispatch(xml: Node, casts: Casts)
    ensures xml.name == "PaymentInfo" && !HasChild(xml, "Error") ==> GetResponse(Default, xml, casts) == Ok(QueryResponse(xml))
    ensures xml.name == "RegisterResponse" && !HasChild(xml, "Error") ==> GetResponse(Default, xml, casts) == Ok(RegisterResponse(xml))
    ensures xml.name == "ProcessResponse" ==> GetResponse(Default, xml, casts) == Ok(ProcessHandoff(xml))
    ensures (xml.name == "PaymentInfo" || xml.name == "RegisterResponse") && HasChild(xml, "Error") ==>
              GetResponse(Default, xml, casts) == Raised(InBandError(xml, casts))
  {
    DefaultSelection();
  }

  /** Any other root tag raises, whatever classes the factory was given. */
  lemma UnknownRootFails(f: Factory, xml: Node, casts: Casts)
    requires xml.name !in Tags
    ensures GetResponse(f, xml, casts) == Raised(InvalidArgument(UnknownRootMessage(xml.name)))
  {
  }

  /** The choice of class depends on nothing but the root tag's name. */
  lemma DispatchByNameOnly(f: Factory, x: Node, y: Node, casts: Casts)
    requires x.name == y.name
    ensures GetResponse(f, x, casts).Raised? && GetResponse(f, x, casts).failure.InvalidArgument?
        <==> GetResponse(f, y, casts).Raised? && GetResponse(f, y, casts).failure.InvalidArgument?
    ensures GetResponse(f, x, casts).Ok? && GetResponse(f, y, casts).Ok? ==>
              GetResponse(f, x, casts).value.QueryResponse? == GetResponse(f, y, casts).value.QueryResponse?
              && GetResponse(f, x, casts).value.RegisterResponse? == GetResponse(f, y, casts).value.RegisterResponse?
              && GetResponse(f, x, casts).value.ProcessHandoff? == GetResponse(f, y, casts).value.ProcessHandoff?
    ensures GetResponse(f, x, casts).Ok? ==> GetResponse(f, x, casts).value.xml == x
    ensures GetResponse(f, y, casts).Ok? ==> GetResponse(f, y, casts).value.xml == y
  {
  }

  /** The factory with the constructor argument for root tag `tag` replaced by `c`. */
  function Override(f: Factory, tag: string, c: Option<ResponseClass>): Factory
    requires tag in Tags
  {
    match tag
    case "PaymentInfo" => f.(queryClass := c)
    case "ProcessResponse" => f.(processClass := c)
    case "RegisterResponse" => f.(registerClass := c)
  }

  /** Replacing one constructor argument changes the class chosen for that tag and for no other. */
  lemma {:induction false} OverrideIsLocal(f: Factory, tag: string, c: ResponseClass, name: string)
    requires tag in Tags
    ensures SelectClass(Override(f, tag, Some(c)), tag) == Ok(c)
    ensures name != tag ==> SelectClass(Override(f, tag, Some(c)), name) == SelectClass(f, name)
  {
    var i :| 0 <= i < |Tags| && Tags[i] == tag;
    assert ClassMap(Override(f, tag, Some(c))) == ClassMap(f)[i := (tag, Some(c))];
    ClassMapWellFormed(f);
    GetUpdate(ClassMap(f), i, Some(c), tag);
    GetUpdate(ClassMap(f), i, Some(c), name);
  }
}

=== FILE: responses.dfy ===
/**
 * The response wrappers. Query and Register extend the abstract response,
 * whose constructor raises the response-level exception when the document
 * carries an `Error` element and otherwise keeps the document as it is.
 */
module Responses {
  import opened Php
  import opened Xml
  import opened Failures

  /** The response classes a factory can be given. */
  datatype ResponseClass = QueryClass | ProcessClass | RegisterClass

  /**
   * A constructed response. The Process class is not part of this model:
   * `ProcessHandoff` is the document handed to its constructor.
   */
  datatype Response =
    | QueryResponse(xml: Node)
    | RegisterResponse(xml: Node)
    | ProcessHandoff(xml: Node)

  /** The exception the abstract response raises for an in-band `Error` element. */
  function InBandError(xml: Node, casts: Casts): Failure {
    var error := Child(xml, "Error");
    ResponseException(Text(error, "ResponseText"), casts.toInt(Text(error, "ResponseCode")), Text(error, "ResponseSource"))
  }

  /** The abstract response's constructor: raise for an `Error` child, else keep the document. */
  function NewAbstractResponse(xml: Node, casts: Casts): (r: Outcome<Node>)
    ensures r.Ok? <==> !HasChild(xml, "Error")
    ensures r.Ok? ==> r.value == xml
    ensures r.Raised? ==> r.failure.ResponseException?
    ensures r.Raised? ==> r.failure.message == Text(Child(xml, "Error"), "ResponseText")
    ensures r.Raised? ==> r.failure.code == casts.toInt(Text(Child(xml, "Error"), "ResponseCode"))
    ensures r.Raised? ==> r.failure.source == Text(Child(xml, "Error"), "ResponseSource")
  {
    if HasChild(xml, "Error") then Raised(InBandError(xml, casts)) else Ok(xml)
  }

  /** `getSource()` of the response-level exception. */
  function GetSource(e: Failure): string
    requires e.ResponseException?
  {
    e.source
  }

  /** `new $class($xml)` for each response class. */
  function Construct(c: ResponseClass, xml: Node, casts: Casts): (r: Outcome<Response>)
    ensures r.Ok? ==> r.value.xml == xml
    ensures c == QueryClass ==> (r.Ok? <==> !HasChild(xml, "Error")) && (r.Ok? ==> r.value.QueryResponse?)
    ensures c == RegisterClass ==> (r.Ok? <==> !HasChild(xml, "Error")) && (r.Ok? ==> r.value.RegisterResponse?)
    ensures c == ProcessClass ==> r == Ok(ProcessHandoff(xml))
    ensures r.Raised? ==> r.failure == InBandError(xml, casts)
  {
    match c
    case QueryClass =>
      var node :- NewAbstractResponse(xml, casts);
      Ok(QueryResponse(node))
    case RegisterClass =>
      var node :- NewAbstractResponse(xml, casts);
      Ok(RegisterResponse(node))
    case ProcessClass => Ok(ProcessHandoff(xml))
  }

  /** `getTransactionId()`: the text of the first `TransactionId` child, or "" without one. */
  function TransactionId(xml: Node): (r: string)
    ensures (forall i :: 0 <= i < |xml.children| ==> xml.children[i].name != "TransactionId") ==> r == ""
    ensures forall i :: FirstAt(xml, "TransactionId", i) ==> r == xml.children[i].text
  {
    TextReadsFirst(xml, "TransactionId");
    Text(xml, "TransactionId")
  }

  /**
   * A wrapped document never holds an `Error` element: every document that
   * has one raises, with the `Error` element's text, code and source.
   */
  lemma {:induction false} ErrorChildAlwaysRaises(xml: Node, casts: Casts)
    requires HasChild(xml, "Error")
    ensures NewAbstractResponse(xml, casts).Raised?
    ensures var e := NewAbstractResponse(xml, casts).failure;
      e.message == Text(Child(xml, "Error"), "ResponseText")
      && e.code == casts.toInt(Text(Child(xml, "Error"), "ResponseCode"))
      && GetSource(e) == Text(Child(xml, "Error"), "ResponseSource")
  {
  }
}

=== FILE: xml.dfy ===
/**
 * The parsed XML document as SimpleXML presents it: a tree of named
 * elements with text, attributes and ordered children. `$node->Name` is the
 * first child called `Name`, or an empty element when there is none, so
 * reading the text of a missing element gives "".
 */
module Xml {
  import opened Optional
  import opened Php

  /** An element; `attrs` holds the attributes under their qualified names (`xsi:type`). */
  datatype Node = Node(name: string, text: string, attrs: PhpArray<string>, children: seq<Node>)

  /** What SimpleXML yields for an element that is not there. */
  function Missing(name: string): Node {
    Node(name, "", [], [])
  }

  /** The first element of `cs` called `name`. */
  function FirstNamed(cs: seq<Node>, name: string): (r: Option<Node>)
    ensures r.Some? <==> exists i :: 0 <= i < |cs| && cs[i].name == name
    ensures r.Some? ==> exists i :: 0 <= i < |cs| && cs[i] == r.value && cs[i].name == name
                                    && forall j :: 0 <= j < i ==> cs[j].name != name
  {
    if cs == [] then None
    else if cs[0].name == name then Some(cs[0])
    else
      var r := FirstNamed(cs[1..], name);
      assert forall i :: 1 <= i < |cs| ==> cs[1..][i - 1] == cs[i];
      r
  }

  /** The element at index `i` is the one found when no earlier sibling shares its name. */
  lemma {:induction false} FirstNamedAt(cs: seq<Node>, name: string, i: nat)
    requires i < |cs| && cs[i].name == name
    requires forall j :: 0 <= j < i ==> cs[j].name != name
    ensures FirstNamed(cs, name) == Some(cs[i])
  {
    if i > 0 {
      assert cs[1..][i - 1] == cs[i];
      FirstNamedAt(cs[1..], name, i - 1);
    }
  }

  /** `$n->name`: the first child called `name`, or an empty element. */
  function Child(n: Node, name: string): (c: Node)
    ensures c.name == name
    ensures (exists i :: 0 <= i < |n.children| && n.children[i].name == name) ==>
      exists i :: 0 <= i < |n.children| && c == n.children[i] && forall j :: 0 <= j < i ==> n.children[j].name != name
    ensures (forall i :: 0 <= i < |n.children| ==> n.children[i].name != name) ==> c == Missing(name)
  {
    match FirstNamed(n.children, name)
    case Some(c) => c
    case None => Missing(name)
  }

  /** `(string) $n->name`. */
  function Text(n: Node, name: string): string {
    Child(n, name).text
  }

  /** Index `i` holds the first child of `n` called `name`. */
  ghost predicate FirstAt(n: Node, name: string, i: int) {
    0 <= i < |n.children| && n.children[i].name == name && forall j :: 0 <= j < i ==> n.children[j].name != name
  }

  /** Below a missing element every text read is "". */
  lemma MissingReadsEmpty(n: Node, name: string)
    ensures (forall i :: 0 <= i < |n.children| ==> n.children[i].name != name) ==>
      forall tag :: Text(Child(n, name), tag) == ""
  {
  }

  /** `(string) $n->name` is the text of the first child so named, and "" when there is none. */
  lemma TextReadsFirst(n: Node, name: string)
    ensures (forall i :: 0 <= i < |n.children| ==> n.children[i].name != name) ==> Text(n, name) == ""
    ensures forall i :: FirstAt(n, name, i) ==> Text(n, name) == n.children[i].text
  {
    forall i | FirstAt(n, name, i)
      ensures Text(n, name) == n.children[i].text
    {
      FirstNamedAt(n.children, name, i);
    }
  }

  /** The text of a child whose name no earlier sibling has is what `(string) $n->name` reads. */
  lemma TextAt(n: Node, i: nat)
    requires i < |n.children|
    requires forall j :: 0 <= j < i ==> n.children[j].name != n.children[i].name
    ensures Text(n, n.children[i].name) == n.children[i].text
  {
    FirstNamedAt(n.children, n.children[i].name, i);
  }

  /** Childless elements named by `names`, holding the texts `texts`. */
  function Leaves(names: seq<string>, texts: seq<string>): (cs: seq<Node>)
    requires |names| == |texts|
    ensures |cs| == |names|
    ensures forall i :: 0 <= i < |cs| ==> cs[i] == Node(names[i], texts[i], [], [])
  {
    seq(|names|, i requires 0 <= i < |names| => Node(names[i], texts[i], [], []))
  }

  /** `count($n->name) > 0`: whether `n` has a child called `name`. */
  predicate HasChild(n: Node, name: string) {
    FirstNamed(n.children, name).Some?
  }

  /** The attribute stored under a qualified name, "" when absent. */
  function Attribute(n: Node, qname: string): string {
    Get(n.attrs, qname).GetOr("")
  }

  /**
   * The loop `foreach (children as $c) $a[key($c)] = (string) $c` over a list
   * of sibling elements, starting from an empty array: later children
   * overwrite earlier ones with the same key, in place.
   */
  function Collect(cs: seq<Node>, key: Node -> string): (r: PhpArray<string>)
    ensures WellFormed(r)
    ensures |r| <= |cs|
    ensures forall k :: HasKey(r, k) <==> exists i :: 0 <= i < |cs| && key(cs[i]) == k
    ensures forall i :: 0 <= i < |cs| && (forall j :: i < j < |cs| ==> key(cs[j]) != key(cs[i]))
                        ==> Get(r, key(cs[i])) == Some(cs[i].text)
  {
    if cs == [] then []
    else
      var init := cs[..|cs| - 1];
      var last := cs[|cs| - 1];
      var prev := Collect(init, key);
      var r := Set(prev, key(last), last.text);
      CollectStepKeys(cs, key, prev, r);
      CollectStepValues(cs, key, prev, r);
      r
  }

  lemma CollectStepKeys(cs: seq<Node>, key: Node -> string, prev: PhpArray<string>, r: PhpArray<string>)
    requires cs != []
    requires var init := cs[..|cs| - 1];
      forall k :: HasKey(prev, k) <==> exists i :: 0 <= i < |init| && key(init[i]) == k
    requires HasKey(r, key(cs[|cs| - 1]))
    requires forall k :: k != key(cs[|cs| - 1]) ==> Get(r, k) == Get(prev, k)
    ensures forall k :: HasKey(r, k) <==> exists i :: 0 <= i < |cs| && key(cs[i]) == k
  {
    var init := cs[..|cs| - 1];
    var n := |cs| - 1;
    forall k ensures HasKey(r, k) <==> exists i :: 0 <= i < |cs| && key(cs[i]) == k {
      if k != key(cs[n]) {
        assert Get(r, k) == Get(prev, k);
        if exists i :: 0 <= i < |cs| && key(cs[i]) == k {
          var i :| 0 <= i < |cs| && key(cs[i]) == k;
          assert init[i] == cs[i];
        }
        if HasKey(prev, k) {
          var i :| 0 <= i < |init| && key(init[i]) == k;
          assert init[i] == cs[i];
        }
      }
    }
  }

  lemma CollectStepValues(cs: seq<Node>, key: Node -> string, prev: PhpArray<string>, r: PhpArray<string>)
    requires cs != []
    requires var init := cs[..|cs| - 1];
      forall i :: 0 <= i < |init| && (forall j :: i < j < |init| ==> key(init[j]) != key(init[i]))
                  ==> Get(prev, key(init[i])) == Some(init[i].text)
    requires Get(r, key(cs[|cs| - 1])) == Some(cs[|cs| - 1].text)
    requires forall k :: k != key(cs[|cs| - 1]) ==> Get(r, k) == Get(prev, k)
    ensures forall i :: 0 <= i < |cs| && (forall j :: i < j < |cs| ==> key(cs[j]) != key(cs[i]))
                        ==> Get(r, key(cs[i])) == Some(cs[i].text)
  {
    var init := cs[..|cs| - 1];
    var n := |cs| - 1;
    forall i | 0 <= i < n && (forall j :: i < j < |cs| ==> key(cs[j]) != key(cs[i]))
      ensures Get(r, key(cs[i])) == Some(cs[i].text)
    {
      assert init[i] == cs[i];
      assert key(cs[n]) != key(cs[i]);
      forall j | i < j < |init| ensures key(init[j]) != key(init[i]) {
        assert init[j] == cs[j];
      }
      assert Get(prev, key(init[i])) == Some(init[i].text);
      assert Get(r, key(cs[i])) == Get(prev, key(cs[i]));
    }
  }

  /** When no two children share a key, each child yields its own entry, in document order. */
  lemma {:induction false} CollectDistinct(cs: seq<Node>, key: Node -> string)
    requires forall i, j :: 0 <= i < j < |cs| ==> key(cs[i]) != key(cs[j])
    ensures |Collect(cs, key)| == |cs|
    ensures forall i :: 0 <= i < |cs| ==> Collect(cs, key)[i] == (key(cs[i]), cs[i].text)
  {
    if cs != [] {
      var init := cs[..|cs| - 1];
      var last := cs[|cs| - 1];
      assert forall i :: 0 <= i < |init| ==> init[i] == cs[i];
      CollectDistinct(init, key);
      var prev := Collect(init, key);
      LastKeyIsNew(cs, init, key, prev);
      assert Collect(cs, key) == prev + [(key(last), last.text)];
      DistinctStep(cs, init, key, prev, Collect(cs, key));
    }
  }

  lemma DistinctStep(cs: seq<Node>, init: seq<Node>, key: Node -> string, prev: PhpArray<string>, r: PhpArray<string>)
    requires cs != [] && init == cs[..|cs| - 1]
    requires |prev| == |init| && forall i :: 0 <= i < |init| ==> prev[i] == (key(init[i]), init[i].text)
    requires r == prev + [(key(cs[|cs| - 1]), cs[|cs| - 1].text)]
    ensures |r| == |cs|
    ensures forall i :: 0 <= i < |cs| ==> r[i] == (key(cs[i]), cs[i].text)
  {
    forall i | 0 <= i < |cs| ensures r[i] == (key(cs[i]), cs[i].text) {
      if i < |init| {
        assert r[i] == prev[i];
        assert init[i] == cs[i];
      }
    }
  }

  lemma LastKeyIsNew(cs: seq<Node>, init: seq<Node>, key: Node -> string, prev: PhpArray<string>)
    requires cs != [] && init == cs[..|cs| - 1]
    requires forall i, j :: 0 <= i < j < |cs| ==> key(cs[i]) != key(cs[j])
    requires forall k :: HasKey(prev, k) <==> exists i :: 0 <= i < |init| && key(init[i]) == k
    ensures !HasKey(prev, key(cs[|cs| - 1]))
  {
  }

  /** The key PHP gives a child element when flattening: its tag name through `lcfirst`. */
  function FieldKey(c: Node): string {
    LcFirst(c.name)
  }

  /**
   * `foreach (children as $c) $a[lcfirst($c->getName())] = (string) $c`, the
   * flattening of a list of children used for history entries and for the
   * result of a BBS failure.
   */
  function Flatten(cs: seq<Node>): PhpArray<string> {
    Collect(cs, FieldKey)
  }
}
